=== FILE: README.md ===
# SVIT college portal — a Dafny model of its client-side logic

The portal is a single-page React application. Students and faculty use it to
log in, register, edit their profile and upload documents. Administrators
manage the other administrator accounts. Everything runs in the browser:
sessions and the administrator list are kept in `localStorage`, and every
"server call" is a simulated delay. This project models the decision logic of
those screens as pure Dafny functions over immutable records and proves what
each handler promises.

Modules, following the program's structure:

- `JsText`: the JavaScript string operations the handlers use. These are
  `trim()` with ECMAScript's white-space set, `.length` in UTF-16 code units,
  `endsWith`, `toLowerCase` and the `split('.').pop()` extension idiom.
- `EmailPattern`: the email test `/\S+@\S+\.\S+/`. It is given as an
  existential reference predicate (`EmailLike`) and as a one-pass scanner
  proved equal to it.
- `Seqs`: `Array.filter`, map-where-matching and distinctness by key, with
  subsequence lemmas.
- `Forms`: validation error maps keyed by field, as the forms keep them.
- `AdminManagement`: adding, resetting, deleting and activating administrator
  accounts, plus secure-password generation.
- `Login`, `Register`, `Profile`: form validation and the submit handlers.
- `FileUpload`, `Uploads`: file selection and validation, the upload record,
  the upload list, its status filter and its badges.
- `Session`: the `App` session (start-up check, login, logout, the profile save), the root route
  and the protected route.

Several things are parameters of the model because the model cannot see them:
- the SHA-256 hash (CryptoJS);
- `Math.random` draws;
- `Date.now()` ids and ISO timestamps;
- `JSON.parse` and `JSON.stringify`.

`localStorage` is a `map<string, string>`.

The code has no login lockout and no first-run
bootstrap of a super-administrator. It compares emails case-sensitively. It
checks the manage-administrators capability only in the rendered buttons,
never in the handlers. It never refuses to reset a super-administrator's
password. It uses one fixed salt for every password. So the model has no
"permission denied" path in the handlers. `AddIgnoresActorPrivilege` and
`ResetReachesSuperAdmin` state this.

## Model

| member | source | states |
|---|---|---|
| JsText.TrimEmptyIffBlank | src/components/admin/AdminManagement.jsx:70 | `trim()` yields the empty string exactly when every character is ECMAScript white space, so a "required" check on the trimmed text rejects precisely the blank inputs |
| JsText.TrimStartShape | src/components/auth/Register.jsx:54 | trimming the front removes only a white-space prefix and leaves a result that is empty or starts with a non-space |
| JsText.TrimEndShape | src/components/auth/Register.jsx:54 | trimming the end removes only a white-space suffix and leaves a result that is empty or ends with a non-space |
| JsText.JsLength | src/components/admin/AdminManagement.jsx:91 | `.length` counts UTF-16 code units: a single character counts one unit inside the Basic Multilingual Plane and two outside it, so every string lies between its character count and twice that, and text inside the plane counts one per character |
| JsText.JsLengthAppend | src/components/admin/AdminManagement.jsx:91 | the length of a concatenation is the sum of the lengths; with the single-character case this fixes `.length` for every string, so three emoji already reach six units |
| JsText.AfterLastDot | src/components/uploads/FileUploadForm.jsx:83 | `split('.').pop()` is the longest dot-free suffix: it holds no dot, a dot precedes it, and it is the whole name exactly when the name has no dot |
| JsText.ToLowerAscii | src/components/uploads/FileUploadForm.jsx:83 | lower-casing keeps the length, leaves no ASCII capital letter and changes no character that is not one |
| JsText.Extension | src/components/uploads/FileUploadForm.jsx:83 | the extension is the lower-cased text after the last dot: the lower-cased suffix of the name as long as that text, preceded by a dot when shorter than the name, holding no dot and no capital letter, and the whole lower-cased name when the name has no dot |
| EmailPattern.MatchEmailPattern | src/components/auth/Login.jsx:38 | the scan answers true exactly when some substring is non-space characters, `@`, non-space characters, `.`, non-space characters, i.e. when the unanchored pattern matches |
| EmailPattern.PlainAddressMatches | src/components/auth/Register.jsx:65 | every address local@domain.tld with non-empty, space-free parts passes the email test |
| Seqs.Filter | src/components/uploads/UploadManager.jsx:105-107 | filtering keeps, in order, exactly the elements the predicate accepts, each as often as it occurred |
| Seqs.FilterKeepingAll | src/components/uploads/UploadManager.jsx:105-107 | a filter that accepts every element returns the list itself |
| Seqs.SubsequenceKeepsDistinct | src/components/admin/AdminManagement.jsx:200 | removing elements from a list whose keys are distinct leaves the keys distinct |
| Seqs.UpdateWhere | src/components/admin/AdminManagement.jsx:224-232 | the mapped list has the same length, exactly the matching elements are changed, in place, and a list with no match comes back unchanged |
| JsValues.FieldOr | src/components/uploads/FileUploadForm.jsx:140-141 | `user?.x \|\| fallback` keeps the user's own value whenever it is truthy and otherwise yields the fallback, so the result is truthy exactly when the user's value or the fallback is |
| Forms.ClearError | src/components/auth/Register.jsx:41-47 | editing a field clears that field's error and keeps every other field's error as it was |
| AdminManagement.GenerateSecurePassword | src/components/admin/AdminManagement.jsx:54-62 | the generated password has 12 characters, each drawn from the 72-character alphabet at the drawn position |
| AdminManagement.GeneratedPasswordsCoverAlphabet | src/components/admin/AdminManagement.jsx:54-62 | every 12-character string over the alphabet is produced by some sequence of draws, so the generator can yield any such password |
| AdminManagement.AddAdmin | src/components/admin/AdminManagement.jsx:64-150 | in the order the handler checks: missing required field, invalid email, email already used, or a short or mismatched password fails and leaves the list unchanged; otherwise exactly one active, non-super record is appended with the form's values as typed, the hash of the given or default password, the creator's id and the timestamp |
| AdminManagement.AddReportsFirstViolation | src/components/admin/AdminManagement.jsx:69-101 | the error reported is the violated check of lowest rank, and a success happens exactly when no check is violated |
| AdminManagement.AddKeepsEmailsDistinct | src/components/admin/AdminManagement.jsx:82-87 | if the administrators' emails are distinct before an add, they are distinct after it |
| AdminManagement.AddKeepsIdsDistinct | src/components/admin/AdminManagement.jsx:110 | with a fresh id, adding keeps the ids distinct |
| AdminManagement.AddIgnoresActorPrivilege | src/components/admin/AdminManagement.jsx:64-126 | an actor who may manage administrators and one who may not, with the same id, get the same outcome from an add, so the handler itself has no capability check |
| AdminManagement.AddNoticeDisclosesDefaultPassword | src/components/admin/AdminManagement.jsx:104-148 | when no password was typed, the success notice ends with the default password, and that is the password whose hash is stored for the new account |
| AdminManagement.ErrorMessagesDistinct | src/components/admin/AdminManagement.jsx:70-98 | different failed checks show different alert texts |
| AdminManagement.FixedSaltSharesHashes | src/components/admin/AdminManagement.jsx:49-52 | `hashPassword` appends one fixed salt for every account, so two accounts added with the same password store the same hash |
| AdminManagement.ResetPassword | src/components/admin/AdminManagement.jsx:152-184 | with no selected account nothing happens; otherwise only the selected account (matched by id) gets the hash of the new or a generated password, every other record is unchanged, and a temporary password is shown exactly when none was typed |
| AdminManagement.ResetStoresHashOfNewPassword | src/components/admin/AdminManagement.jsx:155-166 | after a reset, the stored hash of the target equals the hash of the password shown or typed |
| AdminManagement.ResetNoticeDisclosesPassword | src/components/admin/AdminManagement.jsx:155-182 | a reset with no typed password shows a notice ending in the generated password, and that password's hash is what the target now stores |
| AdminManagement.ResetKeepsInvariants | src/components/admin/AdminManagement.jsx:159-169 | a reset keeps emails distinct and ids distinct |
| AdminManagement.ResetReachesSuperAdmin | src/components/admin/AdminManagement.jsx:152-169 | the reset handler changes a super-administrator's password like any other |
| AdminManagement.DeleteAdmin | src/components/admin/AdminManagement.jsx:191-213 | deleting a super-administrator is refused and changes nothing; otherwise the records with the target's id are removed and all others are kept in order with their multiplicities |
| AdminManagement.DeleteKeepsSuperAdmins | src/components/admin/AdminManagement.jsx:193-200 | when ids are distinct and the target is listed, no delete removes a super-administrator record |
| AdminManagement.DeleteKeepsInvariants | src/components/admin/AdminManagement.jsx:200 | a delete keeps emails distinct and ids distinct |
| AdminManagement.ToggleActive | src/components/admin/AdminManagement.jsx:215-239 | a super-administrator cannot be toggled; otherwise only records with the target's id flip their active flag, and the notice says "deactivated" exactly when the target was active |
| AdminManagement.ToggleTwiceRestores | src/components/admin/AdminManagement.jsx:224-232 | toggling the same account twice gives back the original list |
| AdminManagement.ToggleKeepsInvariants | src/components/admin/AdminManagement.jsx:224-232 | a toggle keeps emails distinct and ids distinct |
| AdminManagement.ToggleKeepsSuperAdmins | src/components/admin/AdminManagement.jsx:216-232 | when ids are distinct and the target is listed, toggling never changes a super-administrator record |
| Login.ValidateLogin | src/components/auth/Login.jsx:32-51 | the email error is present exactly when the email is empty or fails the email test, the password error exactly when the password is empty or shorter than six code units, each with its message |
| Login.DemoUser | src/components/auth/Login.jsx:68-76 | the demonstration user is a student whose email is the one typed |
| Login.SubmitLogin | src/components/auth/Login.jsx:53-90 | invalid forms report their errors; valid forms log in exactly with the demo credentials, giving a student user with the typed email and the demo token; every other valid form is refused |
| Login.DemoCredentialsLogIn | src/components/auth/Login.jsx:67-80 | the demo email and password log in whatever the remember-me flag |
| Register.ValidateRegistration | src/components/auth/Register.jsx:50-104 | for each of the nine fields, its error is present exactly when its check fails, and it carries that check's message |
| Register.SubmitRegistration | src/components/auth/Register.jsx:106-111 | a registration is submitted exactly when validation reports no error |
| Register.SubmittedIffAcceptable | src/components/auth/Register.jsx:50-111 | a registration is submitted exactly when every field check passes, stated without the error map |
| Register.SuffixCheckIsNotAnchored | src/components/auth/Register.jsx:67-69 | an address whose domain merely ends in the college domain, such as x@foosvit.edu.in, passes the college-email check |
| Register.HandleChange | src/components/auth/Register.jsx:34-48 | a change stores the typed value (or the checkbox state) in its field only, clears that field's error and keeps all other errors |
| Register.RenderedEditsKeepLastName | src/components/auth/Register.jsx:156-191 | edits made through the inputs the page renders, the first name and the terms box, never change the last name |
| Register.EmptyLastNameRejected | src/components/auth/Register.jsx:58-60 | a form with an empty last name is rejected with the last-name message |
| Register.RenderedPageNeverSubmits | src/components/auth/Register.jsx:156-191 | from the initial form, no sequence of edits through the rendered inputs leads to a submission; the last-name error always remains |
| Register.FullFormSubmitsExactlyAcceptable | src/components/auth/Register.jsx:6-16 | with an input for every field, the edits that type a form reach exactly that form from the initial one, and it is submitted exactly when it is acceptable |
| Profile.InitialProfileForm | src/components/profile/Profile.jsx:6-14 | each of the seven profile fields starts from the user's value when it is truthy and from the empty string otherwise |
| Profile.MergeProfile | src/components/profile/Profile.jsx:56-59 | the saved user has every form field overwritten and every other user key kept |
| Profile.UntouchedSaveNormalises | src/components/profile/Profile.jsx:6-59 | saving an untouched form changes only the profile keys whose stored value is falsy, and turns them into the empty string |
| Profile.SubmitPasswordChange | src/components/profile/Profile.jsx:76-114 | in the handler's order, a new password shorter than six code units or a mismatched confirmation is rejected with its message; otherwise the change succeeds and the form is cleared |
| Profile.CurrentPasswordIgnored | src/components/profile/Profile.jsx:82-97 | the outcome does not depend on the current-password field |
| Uploads.FilterByStatus | src/components/uploads/UploadManager.jsx:104-107 | "all" shows the whole list; any other filter fails exactly when the list holds null, and otherwise keeps, in order, exactly the files with that status |
| Uploads.DeleteFile | src/components/uploads/UploadManager.jsx:88-94 | the delete fails exactly when the list holds null; otherwise it keeps, in order, exactly the files whose id differs from the target's |
| Uploads.BadgeVariant | src/components/uploads/UploadManager.jsx:109-121 | approved is green, pending yellow, rejected red, and any other or missing status grey |
| Uploads.FilteredEntriesShareBadge | src/components/uploads/UploadManager.jsx:104-121 | every file a status filter shows carries that status's badge |
| Uploads.HandleUploadSuccess | src/components/uploads/UploadManager.jsx:78-81 | the reported entry, null included, goes first and the old list follows unchanged |
| Uploads.RowKeys | src/components/uploads/UploadManager.jsx:213-214 | rendering the table fails exactly when a shown entry is null, and otherwise gives each shown file's id in order |
| FileUpload.CancelBreaksListing | src/components/uploads/FileUploadForm.jsx:311 | after Cancel reports null and the list prepends it, the next render of the list fails under every filter, and so does every delete |
| Uploads.HandleUploadResult | src/components/uploads/UploadManager.jsx:78-81 | the corrected handler ignores a null result and otherwise prepends, so the list stays free of null |
| Uploads.NullFreeListingTotal | src/components/uploads/UploadManager.jsx:88-107 | on a null-free list, after the corrected handler, filtering, rendering and deleting always succeed |
| FileUpload.ValidateAndSetFile | src/components/uploads/FileUploadForm.jsx:48-92 | the file error is cleared first; with no file nothing else changes; then an oversized file, or one that neither the MIME list nor the extension list accepts, sets the error to its message and is not selected; otherwise the file is selected and the error stays cleared |
| FileUpload.SubmitUpload | src/components/uploads/FileUploadForm.jsx:94-159 | in the handler's order, no file, then a blank description, then no category is rejected with its message; otherwise a record with no status is reported, carrying the id, the file's name, the date, the size label, the description, the category and the uploader's name and id, and the form is reset |
| FileUpload.UploaderAlwaysNamed | src/components/uploads/FileUploadForm.jsx:140-141 | the fallbacks make every upload name a truthy uploader and uploader id, even with no signed-in user |
| FileUpload.FreshUploadOnlyUnderAll | src/components/uploads/FileUploadForm.jsx:131-142 | a new upload carries no status, so only the "all" filter lists it and its badge is the grey one |
| FileUpload.ExtensionClassesDisjoint | src/components/uploads/FileUploadForm.jsx:181-192 | no extension belongs to two icon classes, so the order of the icon tests does not matter |
| FileUpload.FileIcon | src/components/uploads/FileUploadForm.jsx:176-196 | with no file the upload cloud shows; otherwise the lower-cased extension picks the image, PDF, Word, Excel, PowerPoint or text icon exactly when it is in that class, and a generic icon otherwise |
| FileUpload.IconClassesCoverValidExtensions | src/components/uploads/FileUploadForm.jsx:84-192 | the icon classes together are exactly the accepted extensions, so every file that passes the extension test gets a specific icon |
| Session.CheckAuthStatus | src/App.jsx:22-45 | at start-up the user is authenticated exactly when a token is stored and the stored user parses to a truthy value; a parse error clears both keys; loading ends in every case |
| Session.LoginUser | src/App.jsx:47-52 | logging in stores the token and the serialised user under their keys, keeps the other keys, and authenticates the user |
| Session.LogoutUser | src/App.jsx:54-59 | logging out removes exactly the two session keys and clears the user |
| Session.LogoutIdempotent | src/App.jsx:54-59 | logging out twice is the same as logging out once |
| Session.LoginSurvivesReload | src/App.jsx:22-52 | after a login, a reload authenticates the same user again when the stored text parses back to it |
| Session.LogoutSurvivesReload | src/App.jsx:22-59 | after a logout, a reload is not authenticated |
| Session.SaveProfile | src/components/profile/Profile.jsx:56-64 | a profile save makes the merged record the session user and rewrites only the stored user text; the token and the other keys are kept |
| Session.SaveProfileSurvivesReload | src/components/profile/Profile.jsx:56-64 | after a profile save the token is unchanged, so a reload signs the merged user back in when its stored text parses back to it |
| Session.RootRoute | src/App.jsx:61-80 | while loading the spinner shows; afterwards the root path shows the login page exactly when no one is authenticated and redirects to the dashboard otherwise |
| Session.ProtectedRoute | src/components/common/ProtectedRoute.jsx:4-11 | a protected route shows its page exactly when the session is signed in, and redirects to `/` otherwise |
| Session.SignedOutSeesNoProtectedPage | src/components/common/ProtectedRoute.jsx:4-11 | no protected page shows after a logout, and after a reload one shows exactly when a token is stored and the stored user parses to an object |
| Session.SubmitLoginForm | src/App.jsx:47-80 | a login form changes the session only when it logs in, and then the session is authenticated |
| Session.DemoLoginReachesDashboard | src/App.jsx:77-80 | logging in with the demo credentials leads the root path to the dashboard, also after a reload |

## Left out

- Rendering, modals, alerts and Bootstrap layout: the model keeps the data each screen shows, not the markup.
- Timers: the simulated network delays, the upload progress bar and the timed dismissal of messages are left out; each handler is modelled as its final state change.
- `formatFileSize` and `formatDate`: floating-point division and locale formatting; the upload record takes the size label as a parameter.
- SHA-256, `Math.random`, `Date.now()`, ISO timestamps, `JSON.parse` and `JSON.stringify` are parameters, so the model says nothing about their values.
- AdminManagement.GenerateSecurePassword: states the count in characters, not in UTF-16 code units, and not the uniform distribution of `Math.random`.
- The administrator list's `useEffect` loading and saving through `localStorage`, and the redirect of a non-administrator: the list itself is the model's state.
- AdminManagement.DeleteAdmin and AdminManagement.ToggleActive take the account the modal or row was opened on; a missing target, which the screen never passes, is not modelled.
- The administrator form's role selection is a free string, because the handler never checks it.
- The change handlers of the other forms are left out. Each stores the typed value; they differ in which error they clear:
  - The login form's (src/components/auth/Login.jsx:16-30) also clears that field's error, exactly as the modelled registration handler does.
  - The administrator form's (src/components/admin/AdminManagement.jsx:41-47) clears no error.
  - The profile page's two handlers (src/components/profile/Profile.jsx:29-45) clear the form's single error message, whichever field changed.
- Login's and registration's `catch` branches: their `try` blocks only schedule timers and cannot throw, so those paths are unreachable.
- `toLowerCase` is modelled on ASCII letters only. No non-ASCII character lowercases into the letters of an accepted extension, so the extension checks are unaffected.
- `JsValues` models only the JSON values the screens read (null, booleans and strings). A stored user that parses to any truthy value that is not an object (`true`, a non-empty string, a non-zero number, an array) also passes `checkAuthStatus` (src/App.jsx:31-33); the model's parse result can only carry a record, so those inputs are not modelled.
- The upload record's `url` (from `URL.createObjectURL`) and `fileObject` fields are left out; no handler reads them.
- `handleDrop` and `handleFileChange` only pass the first chosen file, if any, to `validateAndSetFile`, which takes an optional file.
- The dashboard, its widgets, the header, the footer and the not-found page only display data and hold no logic.

## Findings

| source | as written | input that shows it | evidently intended | confidence | as-written member | corrected member |
|---|---|---|---|---|---|---|
| src/components/uploads/FileUploadForm.jsx:311 | Cancel calls `onUploadSuccess(null)`; `handleUploadSuccess` (UploadManager.jsx:78-81) prepends that `null` to the file list; the next render reads `.id` of it in the table (UploadManager.jsx:213-214) or `.status` of it in the filter (line 107), and throws; a delete would read `.id` of it too | any list; press Cancel in the upload modal; the next render of the page throws | Cancel only closes the modal and leaves the list unchanged | high; not executed | FileUpload.CancelBreaksListing | Uploads.HandleUploadResult |
| src/components/auth/Register.jsx:156-191 | the registration form renders inputs only for the first name and the terms box; the last name, email, password, confirmation, roll number, branch and year stay empty, so `validateForm` always reports errors and nothing is ever submitted | open the page, type a first name, tick the box, press Register: the last-name error (and others) appears | the form renders an input for every field it validates (the branch and year lists at lines 23-32 are defined for selects that are never rendered) | high; not executed | Register.RenderedPageNeverSubmits | Register.FullFormSubmitsExactlyAcceptable |

=== FILE: admin_management.dfy ===
/**
 * The administrator list behind the Admin Management page: an ordered
 * sequence of records persisted as a whole after every change, and the four
 * handlers that change it (add, reset password, delete, toggle active).
 *
 * The handlers themselves never look at the signed-in user's super-admin
 * flag; only the page decides whether to render the buttons that call them
 * (`CanManageAdmins`). Likewise the reset handler has no super-admin refusal:
 * only the hidden button protects that account.
 */
module AdminManagement {
  import opened Wrappers
  import opened JsText
  import opened EmailPattern
  import opened Seqs

  datatype Admin = Admin(
    id: string,
    name: string,
    email: string,
    department: string,
    role: string,
    isAdmin: bool,
    isSuperAdmin: bool,
    passwordHash: string,
    requiresPasswordChange: bool,
    createdAt: string,
    createdBy: string,
    lastLogin: Option<string>,
    active: bool,
    passwordLastChanged: Option<string>)

  /** The add-admin form as typed by the user. */
  datatype AdminForm = AdminForm(
    name: string,
    email: string,
    department: string,
    role: string,
    password: string,
    confirmPassword: string)

  /** The signed-in user who opens the page. */
  datatype Actor = Actor(id: string, isSuperAdmin: bool)

  /** The page shows the add, reset, toggle and delete controls only to a super-admin. */
  predicate CanManageAdmins(user: Actor) {
    user.isSuperAdmin
  }

  const Salt: string := "svit-college-salt"
  const DefaultPassword: string := "admin123"
  const MinPasswordLength: nat := 8
  const GeneratedLength: nat := 12
  const PasswordAlphabet: string :=
    "ABCDEFGHIJKLMNOPQRSTUVWXYZabcdefghijklmnopqrstuvwxyz0123456789!@#$%^&*()"

  /** SHA-256 rendered as hex text; the model treats it as an arbitrary deterministic function. */
  type Digest = string -> string

  /** `hashPassword`: one fixed salt appended for every account. */
  function HashPassword(sha: Digest, password: string): string {
    sha(password + Salt)
  }

  /** One `Math.floor(Math.random() * chars.length)`: an index into the 72-character alphabet. */
  type Draw = d: nat | d < 72

  /** The twelve random indices one call of `generateSecurePassword` draws. */
  type RandomDraws = ds: seq<Draw> | |ds| == 12 witness seq(12, _ => 0)

  /** `generateSecurePassword`: the i-th character is the alphabet entry the i-th draw picks. */
  function GenerateSecurePassword(draws: RandomDraws): (p: string)
    ensures |p| == GeneratedLength
    ensures forall i | 0 <= i < |p| :: p[i] in PasswordAlphabet
    ensures forall i | 0 <= i < |p| :: p[i] == PasswordAlphabet[draws[i]]
  {
    assert |PasswordAlphabet| == 72;
    seq(12, i requires 0 <= i < 12 => PasswordAlphabet[draws[i]])
  }

  /** Every 12-character string over the alphabet is a possible generated password. */
  lemma {:induction false} GeneratedPasswordsCoverAlphabet(p: string)
    requires |p| == GeneratedLength
    requires forall i | 0 <= i < |p| :: p[i] in PasswordAlphabet
    ensures exists draws: RandomDraws :: GenerateSecurePassword(draws) == p
  {
    assert |PasswordAlphabet| == 72;
    var picks: seq<Draw> := [];
    while |picks| < 12
      invariant |picks| <= 12
      invariant forall i | 0 <= i < |picks| :: PasswordAlphabet[picks[i]] == p[i]
    {
      var c := p[|picks|];
      var k :| 0 <= k < |PasswordAlphabet| && PasswordAlphabet[k] == c;
      picks := picks + [k];
    }
    var draws: RandomDraws := picks;
    assert GenerateSecurePassword(draws) == p;
  }

  // ---------------------------------------------------------------------------
  // Results

  datatype AdminError =
    | MissingFields
    | InvalidEmail
    | DuplicateEmail
    | PasswordTooShort
    | PasswordMismatch
    | SuperAdminNotDeletable
    | SuperAdminNotDeactivatable

  function ErrorMessage(e: AdminError): string {
    match e
    case MissingFields => "All fields are required"
    case InvalidEmail => "Please enter a valid email address"
    case DuplicateEmail => "An admin with this email already exists"
    case PasswordTooShort => "Password must be at least 8 characters"
    case PasswordMismatch => "Passwords do not match"
    case SuperAdminNotDeletable => "Cannot delete super admin"
    case SuperAdminNotDeactivatable => "Cannot deactivate super admin"
  }

  datatype Notice =
    | AddedWithCustomPassword
    | AddedWithDefaultPassword
    | ResetFor(adminName: string)
    | ResetToTemporary(password: string)
    | Removed
    | Deactivated
    | Activated

  function NoticeMessage(n: Notice): string {
    match n
    case AddedWithCustomPassword => "Admin added successfully with custom password"
    case AddedWithDefaultPassword => "Admin added successfully with default password: admin123"
    case ResetFor(name) => "Password reset successfully for " + name
    case ResetToTemporary(p) => "Password reset successfully. New temporary password: " + p
    case Removed => "Admin removed successfully"
    case Deactivated => "Admin deactivated successfully"
    case Activated => "Admin activated successfully"
  }

  /** What a handler shows: an error, a success notice, or nothing at all. */
  datatype Feedback = Failed(error: AdminError) | Succeeded(notice: Notice) | Ignored

  /** The list after a handler ran, and what it showed. */
  datatype Outcome = Outcome(admins: seq<Admin>, feedback: Feedback)

  // ---------------------------------------------------------------------------
  // List invariants

  predicate EmailTaken(admins: seq<Admin>, email: string) {
    exists i | 0 <= i < |admins| :: admins[i].email == email
  }

  /** No two records carry the same email string (compared exactly, case included). */
  predicate EmailsDistinct(admins: seq<Admin>) {
    DistinctBy(admins, (a: Admin) => a.email)
  }

  predicate IdsDistinct(admins: seq<Admin>) {
    DistinctBy(admins, (a: Admin) => a.id)
  }

  // ---------------------------------------------------------------------------
  // Add

  predicate RequiredFieldsPresent(form: AdminForm) {
    Trim(form.name) != "" && Trim(form.email) != "" && Trim(form.department) != ""
  }

  /** The validation chain of `handleAddAdmin`; the first failing check decides. */
  function AddCheck(admins: seq<Admin>, form: AdminForm): Option<AdminError> {
    if !RequiredFieldsPresent(form) then Some(MissingFields)
    else if !EmailLike(form.email) then Some(InvalidEmail)
    else if EmailTaken(admins, form.email) then Some(DuplicateEmail)
    else if form.password != "" && JsLength(form.password) < MinPasswordLength then Some(PasswordTooShort)
    else if form.password != "" && form.password != form.confirmPassword then Some(PasswordMismatch)
    else None
  }

  /** `formData.password || 'admin123'`. */
  function EffectivePassword(form: AdminForm): string {
    if form.password != "" then form.password else DefaultPassword
  }

  /** `handleAddAdmin`. `id` stands for `adm_${Date.now()}` and `now` for the ISO creation time. */
  function AddAdmin(admins: seq<Admin>, form: AdminForm, actor: Actor, id: string, now: string, sha: Digest): (r: Outcome)
    ensures !r.feedback.Ignored?
    ensures r.feedback.Failed? ==> r.admins == admins
    ensures r.feedback == Failed(MissingFields) <==> !RequiredFieldsPresent(form)
    ensures r.feedback == Failed(InvalidEmail) <==> RequiredFieldsPresent(form) && !EmailLike(form.email)
    ensures r.feedback == Failed(DuplicateEmail) <==>
      RequiredFieldsPresent(form) && EmailLike(form.email) && EmailTaken(admins, form.email)
    ensures r.feedback.Succeeded? ==>
      && |r.admins| == |admins| + 1
      && r.admins[..|admins|] == admins
      && var added := r.admins[|admins|];
      && added.id == id && added.email == form.email && added.name == form.name
      && added.department == form.department && added.role == form.role
      && added.isAdmin && !added.isSuperAdmin && added.active
      && added.lastLogin == None && added.passwordLastChanged == None
      && added.createdBy == actor.id && added.createdAt == now
      && added.passwordHash == HashPassword(sha, if form.password == "" then DefaultPassword else form.password)
      && (added.requiresPasswordChange <==> form.password == "")
      && (r.feedback.notice == AddedWithDefaultPassword <==> form.password == "")
      && (r.feedback.notice == AddedWithCustomPassword <==> form.password != "")
  {
    match AddCheck(admins, form)
    case Some(e) => Outcome(admins, Failed(e))
    case None =>
      var added := Admin(
        id := id, name := form.name, email := form.email, department := form.department,
        role := form.role, isAdmin := true, isSuperAdmin := false,
        passwordHash := HashPassword(sha, EffectivePassword(form)),
        requiresPasswordChange := form.password == "",
        createdAt := now, createdBy := actor.id, lastLogin := None, active := true,
        passwordLastChanged := None);
      var notice := if form.password != "" then AddedWithCustomPassword else AddedWithDefaultPassword;
      Outcome(admins + [added], Succeeded(notice))
  }

  /** Position of each check in `handleAddAdmin`. */
  function CheckRank(e: AdminError): nat {
    match e
    case MissingFields => 0
    case InvalidEmail => 1
    case DuplicateEmail => 2
    case PasswordTooShort => 3
    case PasswordMismatch => 4
    case SuperAdminNotDeletable => 5
    case SuperAdminNotDeactivatable => 6
  }

  /** Every add check that fails, each judged on its own. The two password
      checks only apply to a non-empty password. */
  function AddViolations(admins: seq<Admin>, form: AdminForm): set<AdminError> {
    (if !RequiredFieldsPresent(form) then {MissingFields} else {})
    + (if !EmailLike(form.email) then {InvalidEmail} else {})
    + (if EmailTaken(admins, form.email) then {DuplicateEmail} else {})
    + (if form.password != "" && JsLength(form.password) < MinPasswordLength then {PasswordTooShort} else {})
    + (if form.password != "" && form.password != form.confirmPassword then {PasswordMismatch} else {})
  }

  /** Adding succeeds exactly when no check fails, and otherwise reports the
      earliest failing check. */
  lemma AddReportsFirstViolation(admins: seq<Admin>, form: AdminForm, actor: Actor, id: string, now: string, sha: Digest)
    ensures var r := AddAdmin(admins, form, actor, id, now, sha);
      && (r.feedback.Succeeded? <==> AddViolations(admins, form) == {})
      && (r.feedback.Failed? ==>
            && r.feedback.error in AddViolations(admins, form)
            && forall e | e in AddViolations(admins, form) :: CheckRank(r.feedback.error) <= CheckRank(e))
  {
  }

  /** A successful add keeps every email distinct. */
  lemma AddKeepsEmailsDistinct(admins: seq<Admin>, form: AdminForm, actor: Actor, id: string, now: string, sha: Digest)
    requires EmailsDistinct(admins)
    ensures EmailsDistinct(AddAdmin(admins, form, actor, id, now, sha).admins)
  {
  }

  /** With a fresh id, a successful add keeps every id distinct. */
  lemma AddKeepsIdsDistinct(admins: seq<Admin>, form: AdminForm, actor: Actor, id: string, now: string, sha: Digest)
    requires IdsDistinct(admins)
    requires forall a | a in admins :: a.id != id
    ensures IdsDistinct(AddAdmin(admins, form, actor, id, now, sha).admins)
  {
  }

  /** The handler never consults the signed-in user's super-admin flag. */
  lemma AddIgnoresActorPrivilege(admins: seq<Admin>, form: AdminForm, manager: Actor, other: Actor,
                                 id: string, now: string, sha: Digest)
    requires CanManageAdmins(manager) && !CanManageAdmins(other) && manager.id == other.id
    ensures AddAdmin(admins, form, manager, id, now, sha) == AddAdmin(admins, form, other, id, now, sha)
  {
  }

  /** When no password was typed, the notice discloses the password that now
      opens the new account. */
  lemma AddNoticeDisclosesDefaultPassword(admins: seq<Admin>, form: AdminForm, actor: Actor, id: string,
                                          now: string, sha: Digest)
    requires form.password == ""
    requires AddAdmin(admins, form, actor, id, now, sha).feedback.Succeeded?
    ensures var r := AddAdmin(admins, form, actor, id, now, sha);
      && EndsWith(NoticeMessage(r.feedback.notice), DefaultPassword)
      && r.admins[|admins|].passwordHash == HashPassword(sha, DefaultPassword)
  {
  }

  /** `hashPassword` uses one salt for every account, so two accounts added
      with the same password, or both with the default one, store the same hash. */
  lemma FixedSaltSharesHashes(admins1: seq<Admin>, form1: AdminForm, id1: string,
                              admins2: seq<Admin>, form2: AdminForm, id2: string,
                              actor: Actor, now: string, sha: Digest)
    requires AddAdmin(admins1, form1, actor, id1, now, sha).feedback.Succeeded?
    requires AddAdmin(admins2, form2, actor, id2, now, sha).feedback.Succeeded?
    requires form1.password == form2.password
    ensures AddAdmin(admins1, form1, actor, id1, now, sha).admins[|admins1|].passwordHash
         == AddAdmin(admins2, form2, actor, id2, now, sha).admins[|admins2|].passwordHash
  {
  }

  /** Each failed check shows its own alert text, so the text tells which check failed. */
  lemma ErrorMessagesDistinct(e1: AdminError, e2: AdminError)
    requires e1 != e2
    ensures ErrorMessage(e1) != ErrorMessage(e2)
  {
  }

  // ---------------------------------------------------------------------------
  // Reset password

  /** `handleResetPassword`. `target` is the record the modal was opened for,
      `draws` the random indices `generateSecurePassword` would use. */
  function ResetPassword(admins: seq<Admin>, target: Option<Admin>, newPassword: string,
                         draws: RandomDraws, now: string, sha: Digest): (r: Outcome)
    ensures target.None? ==> r == Outcome(admins, Ignored)
    ensures target.Some? ==>
      var password := if newPassword != "" then newPassword else GenerateSecurePassword(draws);
      && |r.admins| == |admins|
      && (forall i | 0 <= i < |admins| && admins[i].id != target.value.id :: r.admins[i] == admins[i])
      && (forall i | 0 <= i < |admins| && admins[i].id == target.value.id ::
            r.admins[i] == admins[i].(passwordHash := HashPassword(sha, password),
                                      requiresPasswordChange := newPassword == "",
                                      passwordLastChanged := Some(now)))
      && r.feedback.Succeeded?
      && (r.feedback.notice.ResetToTemporary? <==> newPassword == "")
      && (r.feedback.notice.ResetToTemporary? ==> r.feedback.notice.password == password)
      && (!r.feedback.notice.ResetToTemporary? ==> r.feedback.notice == ResetFor(target.value.name))
  {
    match target
    case None => Outcome(admins, Ignored)
    case Some(t) =>
      var password := if newPassword != "" then newPassword else GenerateSecurePassword(draws);
      var updated := UpdateWhere(admins, (a: Admin) => a.id == t.id,
        (a: Admin) => a.(passwordHash := HashPassword(sha, password),
                         requiresPasswordChange := newPassword == "",
                         passwordLastChanged := Some(now)));
      var notice := if newPassword != "" then ResetFor(t.name) else ResetToTemporary(password);
      Outcome(updated, Succeeded(notice))
  }

  /** After a reset, the target's stored hash is the hash of the password the
      caller gave or of the one disclosed in the notice. */
  lemma ResetStoresHashOfNewPassword(admins: seq<Admin>, target: Admin, newPassword: string,
                                     draws: RandomDraws, now: string, sha: Digest, i: nat)
    requires i < |admins| && admins[i].id == target.id
    ensures var r := ResetPassword(admins, Some(target), newPassword, draws, now, sha);
      && (newPassword != "" ==> r.admins[i].passwordHash == HashPassword(sha, newPassword))
      && (newPassword == "" ==> r.admins[i].passwordHash == HashPassword(sha, r.feedback.notice.password)
                                && r.admins[i].requiresPasswordChange)
  {
  }

  /** A reset without a typed password shows the generated password, and that
      password is the one whose hash is now stored for the target. */
  lemma ResetNoticeDisclosesPassword(admins: seq<Admin>, target: Admin, draws: RandomDraws, now: string,
                                     sha: Digest, i: nat)
    requires i < |admins| && admins[i].id == target.id
    ensures var r := ResetPassword(admins, Some(target), "", draws, now, sha);
      && r.feedback.notice.ResetToTemporary?
      && EndsWith(NoticeMessage(r.feedback.notice), r.feedback.notice.password)
      && r.admins[i].passwordHash == HashPassword(sha, r.feedback.notice.password)
  {
  }

  /** A reset changes no email and no id, so both stay distinct. */
  lemma ResetKeepsInvariants(admins: seq<Admin>, target: Option<Admin>, newPassword: string,
                             draws: RandomDraws, now: string, sha: Digest)
    requires EmailsDistinct(admins) && IdsDistinct(admins)
    ensures var r := ResetPassword(admins, target, newPassword, draws, now, sha).admins;
      EmailsDistinct(r) && IdsDistinct(r)
  {
  }

  /** The reset handler has no super-admin refusal: a super-admin target gets a new hash. */
  lemma ResetReachesSuperAdmin(admins: seq<Admin>, i: nat, newPassword: string,
                               draws: RandomDraws, now: string, sha: Digest)
    requires i < |admins| && admins[i].isSuperAdmin && newPassword != ""
    ensures var r := ResetPassword(admins, Some(admins[i]), newPassword, draws, now, sha);
      r.admins[i].isSuperAdmin && r.admins[i].passwordHash == HashPassword(sha, newPassword)
  {
  }

  // ---------------------------------------------------------------------------
  // Delete

  /** `confirmDeleteAdmin` for the record the confirmation modal was opened on. */
  function DeleteAdmin(admins: seq<Admin>, target: Admin): (r: Outcome)
    ensures target.isSuperAdmin ==> r == Outcome(admins, Failed(SuperAdminNotDeletable))
    ensures !target.isSuperAdmin ==>
      && r.feedback == Succeeded(Removed)
      && IsSubsequence(r.admins, admins)
      && (forall a :: a in r.admins <==> a in admins && a.id != target.id)
      && (forall a: Admin | a.id != target.id :: multiset(r.admins)[a] == multiset(admins)[a])
  {
    if target.isSuperAdmin then Outcome(admins, Failed(SuperAdminNotDeletable))
    else Outcome(Filter(admins, (a: Admin) => a.id != target.id), Succeeded(Removed))
  }

  /** Deleting a listed record never removes a super-admin, given distinct ids. */
  lemma DeleteKeepsSuperAdmins(admins: seq<Admin>, target: Admin)
    requires IdsDistinct(admins) && target in admins
    ensures forall a | a in admins && a.isSuperAdmin :: a in DeleteAdmin(admins, target).admins
  {
  }

  /** Deleting keeps every email and every id distinct. */
  lemma DeleteKeepsInvariants(admins: seq<Admin>, target: Admin)
    requires EmailsDistinct(admins) && IdsDistinct(admins)
    ensures var r := DeleteAdmin(admins, target).admins;
      EmailsDistinct(r) && IdsDistinct(r)
  {
    var r := DeleteAdmin(admins, target).admins;
    if !target.isSuperAdmin {
      SubsequenceKeepsDistinct(r, admins, (a: Admin) => a.email);
      SubsequenceKeepsDistinct(r, admins, (a: Admin) => a.id);
    }
  }

  // ---------------------------------------------------------------------------
  // Toggle active

  /** `handleToggleActive` for the record whose button was pressed. */
  function ToggleActive(admins: seq<Admin>, target: Admin): (r: Outcome)
    ensures target.isSuperAdmin ==> r == Outcome(admins, Failed(SuperAdminNotDeactivatable))
    ensures !target.isSuperAdmin ==>
      && |r.admins| == |admins|
      && (forall i | 0 <= i < |admins| && admins[i].id != target.id :: r.admins[i] == admins[i])
      && (forall i | 0 <= i < |admins| && admins[i].id == target.id ::
            r.admins[i] == admins[i].(active := !admins[i].active))
      && (r.feedback == Succeeded(Deactivated) <==> target.active)
      && (r.feedback == Succeeded(Activated) <==> !target.active)
  {
    if target.isSuperAdmin then Outcome(admins, Failed(SuperAdminNotDeactivatable))
    else
      var notice := if target.active then Deactivated else Activated;
      Outcome(UpdateWhere(admins, (a: Admin) => a.id == target.id, (a: Admin) => a.(active := !a.active)),
              Succeeded(notice))
  }

  /** Toggling the same record twice restores the list. */
  lemma ToggleTwiceRestores(admins: seq<Admin>, target: Admin)
    ensures ToggleActive(ToggleActive(admins, target).admins, target).admins == admins
  {
  }

  /** A toggle changes no email and no id, so both stay distinct. */
  lemma ToggleKeepsInvariants(admins: seq<Admin>, target: Admin)
    requires EmailsDistinct(admins) && IdsDistinct(admins)
    ensures var r := ToggleActive(admins, target).admins;
      EmailsDistinct(r) && IdsDistinct(r)
  {
  }

  /** Toggling a listed record never changes a super-admin, given distinct ids. */
  lemma ToggleKeepsSuperAdmins(admins: seq<Admin>, target: Admin)
    requires IdsDistinct(admins) && target in admins
    ensures var r := ToggleActive(admins, target).admins;
      forall i | 0 <= i < |admins| && admins[i].isSuperAdmin :: r[i] == admins[i]
  {
  }
}

=== FILE: email_pattern.dfy ===
/**
 * The unanchored regular expression `\S+@\S+\.\S+` that every form in the
 * portal uses to recognise an e-mail address. `EmailLike` is the reference
 * meaning of `RegExp.test`; `MatchEmailPattern` is a single left-to-right
 * scan proved to agree with it.
 */
module EmailPattern {
  import opened JsText

  /** Positions `lo` up to (not including) `hi` hold no white space. */
  predicate NonSpaceRun(s: string, lo: int, hi: int)
    requires 0 <= lo && hi <= |s|
  {
    forall k | lo <= k < hi :: !IsJsSpace(s[k])
  }

  /** A match of `\S+@\S+\.\S+` whose `@` is at `at` and whose `.` is at `dot`:
      a non-space character before the `@`, at least one non-space character
      strictly between the two, and a non-space character after the dot. */
  predicate Witness(s: string, at: int, dot: int) {
    && 0 < at && at + 1 < dot && dot + 1 < |s|
    && s[at] == '@' && s[dot] == '.'
    && !IsJsSpace(s[at - 1]) && !IsJsSpace(s[dot + 1])
    && NonSpaceRun(s, at + 1, dot)
  }

  /** `/\S+@\S+\.\S+/.test(s)`. */
  predicate EmailLike(s: string) {
    exists at, dot | 0 < at < dot < |s| :: Witness(s, at, dot)
  }

  /** An `@` at `at` that could start a match whose non-space run reaches `i`. */
  predicate OpenAt(s: string, at: int, i: int)
    requires i <= |s|
  {
    0 < at < i && s[at] == '@' && !IsJsSpace(s[at - 1]) && NonSpaceRun(s, at + 1, i)
  }

  /** Some open `@` at least two places before `dot` makes `dot` the dot of a match. */
  predicate ValidDot(s: string, dot: int)
    requires dot <= |s|
  {
    exists at | 0 < at && at + 1 < dot :: OpenAt(s, at, dot)
  }

  /** Scanner state after reading `s[..i]`, stated as the facts each flag records. */
  predicate ScanState(s: string, i: int, found: bool, prev: bool, atOpen: bool, atReady: bool, dotOpen: bool)
    requires 0 <= i <= |s|
  {
    && (found <==> exists at, dot | 0 < at < dot && dot + 1 < i :: Witness(s, at, dot))
    && (prev <==> i > 0 && !IsJsSpace(s[i - 1]))
    && (atOpen <==> exists at | 0 < at < i :: OpenAt(s, at, i))
    && (atReady <==> exists at | 0 < at && at + 1 < i :: OpenAt(s, at, i))
    && (dotOpen <==> i > 0 && s[i - 1] == '.' && ValidDot(s, i - 1))
  }

  lemma StepOnSpace(s: string, i: int, found: bool)
    requires 0 <= i < |s| && IsJsSpace(s[i])
    requires found <==> exists at, dot | 0 < at < dot && dot + 1 < i :: Witness(s, at, dot)
    ensures ScanState(s, i + 1, found, false, false, false, false)
  {
  }

  lemma StepOnChar(s: string, i: int, found: bool, prev: bool, atOpen: bool, atReady: bool, dotOpen: bool)
    requires 0 <= i < |s| && !IsJsSpace(s[i])
    requires ScanState(s, i, found, prev, atOpen, atReady, dotOpen)
    ensures ScanState(s, i + 1, found || dotOpen, true, atOpen || (s[i] == '@' && prev),
                      atOpen, s[i] == '.' && atReady)
  {
    var j := i + 1;
    // Matches completed by the character at `i`.
    if dotOpen {
      var at :| 0 < at && at + 1 < i - 1 && OpenAt(s, at, i - 1);
      assert Witness(s, at, i - 1);
    }
    if exists at, dot | 0 < at < dot && dot + 1 < j :: Witness(s, at, dot) {
      var at, dot :| 0 < at < dot && dot + 1 < j && Witness(s, at, dot);
      if dot + 1 == i {
        assert OpenAt(s, at, i - 1);
      }
    }
    // Open `@`s extend across a non-space character, and the one at `i` opens.
    forall at | 0 < at < j && OpenAt(s, at, j) ensures at == i || OpenAt(s, at, i) { }
    if s[i] == '@' && prev {
      assert OpenAt(s, i, j);
    }
    if atOpen {
      var at :| 0 < at < i && OpenAt(s, at, i);
      assert OpenAt(s, at, j);
    }
    assert (atOpen || (s[i] == '@' && prev)) <==> exists at | 0 < at < j :: OpenAt(s, at, j);
    assert atOpen <==> exists at | 0 < at && at + 1 < j :: OpenAt(s, at, j);
    if s[i] == '.' && atReady {
      var at :| 0 < at && at + 1 < i && OpenAt(s, at, i);
      assert ValidDot(s, i);
    }
  }

  /** Decides `EmailLike` in one pass, the way a backtracking-free matcher would. */
  method MatchEmailPattern(s: string) returns (matched: bool)
    ensures matched <==> EmailLike(s)
  {
    var found, prev, atOpen, atReady, dotOpen := false, false, false, false, false;
    var i := 0;
    while i < |s|
      invariant 0 <= i <= |s|
      invariant ScanState(s, i, found, prev, atOpen, atReady, dotOpen)
    {
      var c := s[i];
      if IsJsSpace(c) {
        StepOnSpace(s, i, found);
        prev, atOpen, atReady, dotOpen := false, false, false, false;
      } else {
        StepOnChar(s, i, found, prev, atOpen, atReady, dotOpen);
        found, prev, atOpen, atReady, dotOpen :=
          found || dotOpen, true, atOpen || (c == '@' && prev), atOpen, c == '.' && atReady;
      }
      i := i + 1;
    }
    matched := found;
  }

  /** An address of the form local@domain.tld with no white space matches. */
  lemma {:induction false} PlainAddressMatches(local: string, domain: string, tld: string)
    requires |local| > 0 && |domain| > 0 && |tld| > 0
    requires !IsJsSpace(local[|local| - 1])
    requires forall k | 0 <= k < |domain| :: !IsJsSpace(domain[k])
    requires !IsJsSpace(tld[0])
    ensures EmailLike(local + "@" + domain + "." + tld)
  {
    var s := local + "@" + domain + "." + tld;
    var at, dot := |local|, |local| + 1 + |domain|;
    assert s[at - 1] == local[|local| - 1];
    assert s[dot + 1] == tld[0];
    forall k | at + 1 <= k < dot ensures !IsJsSpace(s[k]) {
      assert s[k] == domain[k - at - 1];
    }
    assert Witness(s, at, dot);
  }
}

=== FILE: file_upload.dfy ===
/**
 * The upload form: accepting or refusing a chosen file, the checks run on
 * submit, the record handed to the upload manager, and the icon shown for
 * the chosen file. The progress bar and its timers are collapsed into one step.
 */
module FileUpload {
  import opened Wrappers
  import opened JsText
  import opened JsValues
  import Uploads

  datatype SelectedFile = SelectedFile(name: string, size: nat, mimeType: string)

  datatype UploadForm = UploadForm(
    file: Option<SelectedFile>,
    description: string,
    category: string,
    error: Option<string>)

  const EmptyForm: UploadForm := UploadForm(None, "", "", None)

  /** 50 MiB; a file of exactly this size is accepted. */
  const MaxFileSize: nat := 50 * 1024 * 1024

  const AllowedTypes: seq<string> := [
    "application/pdf",
    "application/msword",
    "application/vnd.openxmlformats-officedocument.wordprocessingml.document",
    "application/vnd.ms-excel",
    "application/vnd.openxmlformats-officedocument.spreadsheetml.sheet",
    "application/vnd.ms-powerpoint",
    "application/vnd.openxmlformats-officedocument.presentationml.presentation",
    "text/plain",
    "text/csv",
    "image/jpeg",
    "image/png",
    "image/gif",
    "image/bmp",
    "image/svg+xml"]

  const ValidExtensions: seq<string> :=
    ["pdf", "doc", "docx", "xls", "xlsx", "ppt", "pptx", "txt", "csv", "jpg", "jpeg", "png", "gif", "bmp", "svg"]

  const TooLarge: string := "File size exceeds the 50MB limit"
  const Unsupported: string := "Unsupported file type. Please upload documents, images, or text files."
  const NoFileChosen: string := "Please select a file to upload"
  const NoDescription: string := "Please provide a description for the file"
  const NoCategory: string := "Please select a category"

  /** The type test: either the browser's MIME type or the name's extension will do. */
  predicate TypeAccepted(f: SelectedFile) {
    f.mimeType in AllowedTypes || Extension(f.name) in ValidExtensions
  }

  /** `validateAndSetFile`: the error is cleared first; the size check runs before the type check. */
  function ValidateAndSetFile(form: UploadForm, chosen: Option<SelectedFile>): (r: UploadForm)
    ensures r.description == form.description && r.category == form.category
    ensures chosen.None? ==> r == form.(error := None)
    ensures chosen.Some? && chosen.value.size > MaxFileSize ==> r == form.(error := Some(TooLarge))
    ensures chosen.Some? && chosen.value.size <= MaxFileSize && !TypeAccepted(chosen.value) ==>
      r == form.(error := Some(Unsupported))
    ensures r.file != form.file ==> r.file == chosen
    ensures r.file == chosen <==>
      (chosen == form.file || (chosen.Some? && chosen.value.size <= MaxFileSize && TypeAccepted(chosen.value)))
    ensures r.error == None <==> chosen.None? || (chosen.value.size <= MaxFileSize && TypeAccepted(chosen.value))
  {
    match chosen
    case None => form.(error := None)
    case Some(f) =>
      if f.size > MaxFileSize then form.(error := Some(TooLarge))
      else if !TypeAccepted(f) then form.(error := Some(Unsupported))
      else form.(file := Some(f), error := None)
  }

  /** What a submit does: show an error, or hand a record to the upload manager and reset. */
  datatype SubmitOutcome = SubmitRejected(form: UploadForm) | Uploaded(record: Uploads.Upload, form: UploadForm)

  /** `handleSubmit`. `id`, `date` and `sizeLabel` stand for `file${Date.now()}`,
      today's date and the formatted size. */
  function SubmitUpload(form: UploadForm, user: Option<Record>, id: string, date: string, sizeLabel: string): (r: SubmitOutcome)
    ensures r == SubmitRejected(form.(error := Some(NoFileChosen))) <==> form.file.None?
    ensures r == SubmitRejected(form.(error := Some(NoDescription))) <==> form.file.Some? && Trim(form.description) == ""
    ensures r == SubmitRejected(form.(error := Some(NoCategory))) <==>
      form.file.Some? && Trim(form.description) != "" && form.category == ""
    ensures r.Uploaded? <==> form.file.Some? && Trim(form.description) != "" && form.category != ""
    ensures r.Uploaded? ==>
      && r.form == EmptyForm
      && r.record.id == id
      && r.record.name == form.file.value.name
      && r.record.uploadDate == date
      && r.record.size == sizeLabel
      && r.record.description == form.description
      && r.record.category == Some(form.category)
      && r.record.status == None
      && r.record.uploadedBy == Some(FieldOr(user, "name", Str("Admin")))
      && r.record.uploadedById == Some(FieldOr(user, "id", Str("unknown")))
  {
    if form.file.None? then SubmitRejected(form.(error := Some(NoFileChosen)))
    else if Trim(form.description) == "" then SubmitRejected(form.(error := Some(NoDescription)))
    else if form.category == "" then SubmitRejected(form.(error := Some(NoCategory)))
    else
      var record := Uploads.Upload(
        id := id, name := form.file.value.name, uploadDate := date, size := sizeLabel,
        description := form.description, status := None, category := Some(form.category),
        uploadedBy := Some(FieldOr(user, "name", Str("Admin"))),
        uploadedById := Some(FieldOr(user, "id", Str("unknown"))));
      Uploaded(record, EmptyForm)
  }

  /** Thanks to the `|| 'Admin'` and `|| 'unknown'` fallbacks, an upload always
      names a truthy uploader and uploader id, even with no signed-in user. */
  lemma UploaderAlwaysNamed(form: UploadForm, user: Option<Record>, id: string, date: string, sizeLabel: string)
    requires SubmitUpload(form, user, id, date, sizeLabel).Uploaded?
    ensures var rec := SubmitUpload(form, user, id, date, sizeLabel).record;
      && rec.uploadedBy.Some? && Truthy(rec.uploadedBy.value)
      && rec.uploadedById.Some? && Truthy(rec.uploadedById.value)
  {
  }

  /** The Cancel button's report to the upload manager: `null`. */
  const CancelReport: Uploads.Entry := None

  /** The form's Cancel button reports `null`, `handleUploadSuccess` prepends
      it, and the very next render of the list throws: under "all" the table
      reads the null row's id, under any other filter the status filter reads
      its status. Deleting any file throws as well. */
  lemma CancelBreaksListing(files: seq<Uploads.Entry>, filter: string, target: Uploads.Upload)
    ensures var after := Uploads.HandleUploadSuccess(files, CancelReport);
      Uploads.RenderListing(after, filter).None? && Uploads.DeleteFile(after, target).None?
  {
  }

  /** A fresh upload carries no status, so it is listed under "All Files" only
      and its badge is the neutral one. */
  lemma FreshUploadOnlyUnderAll(files: seq<Uploads.Entry>, form: UploadForm, user: Option<Record>,
                                id: string, date: string, sizeLabel: string, filter: string)
    requires SubmitUpload(form, user, id, date, sizeLabel).Uploaded?
    requires filter != Uploads.AllStatuses
    ensures var record := SubmitUpload(form, user, id, date, sizeLabel).record;
      var after := Uploads.HandleUploadSuccess(files, Some(record));
      && Uploads.FilterByStatus(after, Uploads.AllStatuses) == Some(after)
      && after[0] == Some(record)
      && (Uploads.FilterByStatus(after, filter).Some? ==> Some(record) !in Uploads.FilterByStatus(after, filter).value)
      && Uploads.BadgeVariant(record.status) == Uploads.Secondary
  {
  }

  // ---------------------------------------------------------------------------
  // Icons

  const ImageExtensions: set<string> := {"jpg", "jpeg", "png", "gif", "bmp", "svg"}
  const WordExtensions: set<string> := {"doc", "docx"}
  const ExcelExtensions: set<string> := {"xls", "xlsx"}
  const SlideExtensions: set<string> := {"ppt", "pptx"}
  const TextExtensions: set<string> := {"txt", "csv"}

  datatype Icon = CloudUpload | ImageIcon | PdfIcon | WordIcon | ExcelIcon | SlideIcon | TextIcon | GenericIcon

  /** No extension belongs to two icon classes. */
  lemma ExtensionClassesDisjoint()
    ensures "pdf" !in ImageExtensions
    ensures ImageExtensions !! WordExtensions && ImageExtensions !! ExcelExtensions
    ensures ImageExtensions !! SlideExtensions && ImageExtensions !! TextExtensions
    ensures "pdf" !in WordExtensions && "pdf" !in ExcelExtensions
    ensures "pdf" !in SlideExtensions && "pdf" !in TextExtensions
    ensures WordExtensions !! ExcelExtensions && WordExtensions !! SlideExtensions
    ensures WordExtensions !! TextExtensions && ExcelExtensions !! SlideExtensions
    ensures ExcelExtensions !! TextExtensions && SlideExtensions !! TextExtensions
  {
  }

  /** `getFileIcon`. */
  function FileIcon(file: Option<SelectedFile>): (icon: Icon)
    ensures icon == CloudUpload <==> file.None?
    ensures file.Some? ==>
      var ext := Extension(file.value.name);
      && (icon == ImageIcon <==> ext in ImageExtensions)
      && (icon == PdfIcon <==> ext == "pdf")
      && (icon == WordIcon <==> ext in WordExtensions)
      && (icon == ExcelIcon <==> ext in ExcelExtensions)
      && (icon == SlideIcon <==> ext in SlideExtensions)
      && (icon == TextIcon <==> ext in TextExtensions)
  {
    ExtensionClassesDisjoint();
    match file
    case None => CloudUpload
    case Some(f) =>
      var ext := Extension(f.name);
      if ext in ImageExtensions then ImageIcon
      else if ext == "pdf" then PdfIcon
      else if ext in WordExtensions then WordIcon
      else if ext in ExcelExtensions then ExcelIcon
      else if ext in SlideExtensions then SlideIcon
      else if ext in TextExtensions then TextIcon
      else GenericIcon
  }

  /** The icon classes cover exactly the extensions the type test accepts. */
  lemma IconClassesCoverValidExtensions()
    ensures ImageExtensions + {"pdf"} + WordExtensions + ExcelExtensions + SlideExtensions + TextExtensions
         == set e | e in ValidExtensions
  {
  }
}

=== FILE: forms.dfy ===
/**
 * Error maps shared by the login and registration forms: an object from
 * field to message, where clearing a field stores `null` under its key
 * rather than deleting it. Fields are typed per form (`K`).
 */
module Forms {
  import opened Wrappers

  type ErrorMap<K> = map<K, Option<string>>

  /** `errors[key]` is truthy: a non-empty message is stored under `key`. */
  predicate HasError<K>(errors: ErrorMap<K>, key: K) {
    key in errors && errors[key].Some? && errors[key].value != ""
  }

  /** `Object.keys(errors).length === 0`. */
  predicate NoErrors<K>(errors: ErrorMap<K>) {
    errors.Keys == {}
  }

  /** The `handleChange` step `if (errors[name]) setErrors({...errors, [name]: null})`. */
  function ClearError<K>(errors: ErrorMap<K>, key: K): (r: ErrorMap<K>)
    ensures !HasError(r, key)
    ensures HasError(errors, key) ==> key in r && r[key] == None
    ensures !HasError(errors, key) ==> r == errors
    ensures r.Keys == errors.Keys
    ensures forall k | k in errors && k != key :: r[k] == errors[k]
  {
    if HasError(errors, key) then errors[key := None] else errors
  }
}

=== FILE: js_text.dfy ===
/**
 * The JavaScript string primitives the handlers rely on: `.trim()`, the
 * whitespace class `\s`, `.length` (in UTF-16 code units), `.endsWith`,
 * `.toLowerCase()` on ASCII and `.split('.').pop()`.
 */
module JsText {

  /** The characters JavaScript treats as white space in `trim()` and in the
      regular-expression class `\s` (WhiteSpace and LineTerminator). */
  predicate IsJsSpace(c: char) {
    var n := c as int;
    || 0x09 <= n <= 0x0D        // tab, line feed, vertical tab, form feed, carriage return
    || n == 0x20 || n == 0xA0   // space, no-break space
    || n == 0x1680              // Ogham space mark
    || 0x2000 <= n <= 0x200A    // en quad .. hair space
    || n == 0x2028 || n == 0x2029  // line and paragraph separators
    || n == 0x202F || n == 0x205F || n == 0x3000
    || n == 0xFEFF              // byte order mark
  }

  /** Every character is white space (the empty string included). */
  predicate Blank(s: string) {
    forall i | 0 <= i < |s| :: IsJsSpace(s[i])
  }

  function TrimStart(s: string): string
    decreases |s|
  {
    if |s| > 0 && IsJsSpace(s[0]) then TrimStart(s[1..]) else s
  }

  function TrimEnd(s: string): string
    decreases |s|
  {
    if |s| > 0 && IsJsSpace(s[|s| - 1]) then TrimEnd(s[..|s| - 1]) else s
  }

  /** `s.trim()`: drops leading and trailing white space. */
  function Trim(s: string): string {
    TrimEnd(TrimStart(s))
  }

  /** `TrimStart` removes a blank prefix and stops at the first non-space character. */
  lemma {:induction false} TrimStartShape(s: string)
    ensures var r := TrimStart(s);
      && |r| <= |s| && r == s[|s| - |r|..]
      && (r == [] || !IsJsSpace(r[0]))
      && Blank(s[..|s| - |r|])
    decreases |s|
  {
    if |s| > 0 && IsJsSpace(s[0]) {
      TrimStartShape(s[1..]);
      var r := TrimStart(s[1..]);
      assert s[1..][..|s[1..]| - |r|] == s[1..|s| - |r|];
      forall i | 0 <= i < |s| - |r| ensures IsJsSpace(s[i]) {
        if i > 0 {
          assert s[i] == s[1..][..|s[1..]| - |r|][i - 1];
        }
      }
    }
  }

  /** `TrimEnd` removes a blank suffix and stops at the last non-space character. */
  lemma {:induction false} TrimEndShape(s: string)
    ensures var r := TrimEnd(s);
      && |r| <= |s| && r == s[..|r|]
      && (r == [] || !IsJsSpace(r[|r| - 1]))
      && Blank(s[|r|..])
    decreases |s|
  {
    if |s| > 0 && IsJsSpace(s[|s| - 1]) {
      TrimEndShape(s[..|s| - 1]);
      var r := TrimEnd(s[..|s| - 1]);
      assert s[..|s| - 1][|r|..] == s[|r|..|s| - 1];
      forall i | |r| <= i < |s| ensures IsJsSpace(s[i]) {
        if i < |s| - 1 {
          assert s[i] == s[..|s| - 1][|r|..][i - |r|];
        }
      }
    }
  }

  /** `!s.trim()` holds exactly for the blank strings. */
  lemma {:induction false} TrimEmptyIffBlank(s: string)
    ensures Trim(s) == "" <==> Blank(s)
  {
    var t := TrimStart(s);
    TrimStartShape(s);
    TrimEndShape(t);
    if !Blank(s) {
      var i :| 0 <= i < |s| && !IsJsSpace(s[i]);
      assert t[i - (|s| - |t|)] == s[i];
    }
  }

  /** Number of UTF-16 code units a character occupies (JavaScript's unit of `.length`). */
  function CodeUnits(c: char): nat {
    if c as int >= 0x1_0000 then 2 else 1
  }

  /** `s.length`: UTF-16 code units, so a character outside the Basic
      Multilingual Plane counts twice. */
  function JsLength(s: string): (n: nat)
    ensures |s| <= n <= 2 * |s|
    ensures (forall i | 0 <= i < |s| :: s[i] as int < 0x1_0000) ==> n == |s|
    ensures |s| == 1 ==> n == CodeUnits(s[0])
  {
    if s == [] then 0 else CodeUnits(s[0]) + JsLength(s[1..])
  }

  /** `(a + b).length == a.length + b.length`; with the single-character case
      this fixes `.length` for every string. */
  lemma {:induction false} JsLengthAppend(a: string, b: string)
    ensures JsLength(a + b) == JsLength(a) + JsLength(b)
    decreases |a|
  {
    if a != [] {
      assert (a + b)[1..] == a[1..] + b;
      JsLengthAppend(a[1..], b);
    } else {
      assert a + b == b;
    }
  }

  /** `s.endsWith(suffix)`. */
  predicate EndsWith(s: string, suffix: string) {
    |suffix| <= |s| && s[|s| - |suffix|..] == suffix
  }

  function LowerAscii(c: char): char {
    if 'A' <= c <= 'Z' then (c as int + 32) as char else c
  }

  /** `s.toLowerCase()` restricted to the ASCII letters. */
  function ToLowerAscii(s: string): (r: string)
    ensures |r| == |s|
    ensures forall i | 0 <= i < |s| :: r[i] == LowerAscii(s[i])
    ensures forall i | 0 <= i < |r| :: !('A' <= r[i] <= 'Z')
    ensures forall i | 0 <= i < |s| && !('A' <= s[i] <= 'Z') :: r[i] == s[i]
  {
    seq(|s|, i requires 0 <= i < |s| => LowerAscii(s[i]))
  }

  /** `s.split('.').pop()`: the longest suffix of `s` that holds no `.`. */
  function AfterLastDot(s: string): (r: string)
    ensures |r| <= |s| && r == s[|s| - |r|..]
    ensures '.' !in r
    ensures |r| < |s| ==> s[|s| - |r| - 1] == '.'
    ensures |r| == |s| <==> '.' !in s
    decreases |s|
  {
    if s == [] then ""
    else if s[|s| - 1] == '.' then ""
    else
      var r := AfterLastDot(s[..|s| - 1]);
      assert s[..|s| - 1][|s| - 1 - |r|..] == s[|s| - 1 - |r|..|s| - 1];
      r + [s[|s| - 1]]
  }

  /** Lower-cased text after the last dot of a file name (the whole name when it has none). */
  function Extension(name: string): (ext: string)
    ensures |ext| == |AfterLastDot(name)| <= |name|
    ensures ext == ToLowerAscii(name[|name| - |ext|..])
    ensures |ext| < |name| ==> name[|name| - |ext| - 1] == '.'
    ensures '.' in name || ext == ToLowerAscii(name)
    ensures '.' !in ext
    ensures forall i | 0 <= i < |ext| :: !('A' <= ext[i] <= 'Z')
  {
    var last := AfterLastDot(name);
    assert last == name[|name| - |last|..];
    ToLowerAscii(last)
  }
}

=== FILE: js_values.dfy ===
/**
 * The slice of JavaScript values the components store in records: `null`,
 * booleans and strings, with JavaScript truthiness and the `a || b` fallback.
 */
module JsValues {
  import opened Wrappers

  datatype Value = Null | Bool(b: bool) | Str(s: string)

  /** JavaScript truthiness: `true` and every non-empty string. */
  predicate Truthy(v: Value) {
    v == Bool(true) || (v.Str? && v.s != "")
  }

  /** A plain object such as the signed-in user's record. */
  type Record = map<string, Value>

  /** `obj?.[key] || fallback`: a missing object or key reads as `undefined`. */
  function FieldOr(obj: Option<Record>, key: string, fallback: Value): (v: Value)
    ensures v == fallback || (obj.Some? && key in obj.value && v == obj.value[key])
    ensures Truthy(v) <==> (obj.Some? && key in obj.value && Truthy(obj.value[key])) || Truthy(fallback)
    ensures obj.Some? && key in obj.value && Truthy(obj.value[key]) ==> v == obj.value[key]
  {
    if obj.Some? && key in obj.value && Truthy(obj.value[key]) then obj.value[key] else fallback
  }
}

=== FILE: login.dfy ===
/**
 * The student login form: field validation into an error map, then the
 * demonstration credential comparison that decides whether `onLogin` runs.
 */
module Login {
  import opened Wrappers
  import opened JsText
  import opened EmailPattern
  import opened JsValues
  import opened Forms

  datatype LoginForm = LoginForm(email: string, password: string, rememberMe: bool)

  /** The keys of the login error map. */
  datatype LoginField = EmailField | PasswordField

  const MinPasswordLength: nat := 6
  const EmailRequired: string := "Email is required"
  const EmailInvalid: string := "Please enter a valid email address"
  const PasswordRequired: string := "Password is required"
  const PasswordTooShort: string := "Password must be at least 6 characters"

  const DemoEmail: string := "student@svit.edu.in"
  const DemoPassword: string := "password123"
  const DemoToken: string := "dummy_token_12345"

  /** `validateForm`: the email and the password are judged separately, so
      both may carry an error at once. */
  function ValidateLogin(form: LoginForm): (errors: ErrorMap<LoginField>)
    ensures EmailField in errors <==> form.email == "" || !EmailLike(form.email)
    ensures EmailField in errors ==>
      errors[EmailField] == Some(if form.email == "" then EmailRequired else EmailInvalid)
    ensures PasswordField in errors <==> form.password == "" || JsLength(form.password) < MinPasswordLength
    ensures PasswordField in errors ==>
      errors[PasswordField] == Some(if form.password == "" then PasswordRequired else PasswordTooShort)
  {
    var emailErrors: ErrorMap<LoginField> :=
      if form.email == "" then map[EmailField := Some(EmailRequired)]
      else if !EmailLike(form.email) then map[EmailField := Some(EmailInvalid)]
      else map[];
    if form.password == "" then emailErrors[PasswordField := Some(PasswordRequired)]
    else if JsLength(form.password) < MinPasswordLength then emailErrors[PasswordField := Some(PasswordTooShort)]
    else emailErrors
  }

  /** The user record the demonstration login hands to `onLogin`. */
  function DemoUser(email: string): (user: Record)
    ensures "role" in user && user["role"] == Str("student")
    ensures "email" in user && user["email"] == Str(email)
  {
    map["id" := Str("usr_1234"), "name" := Str("Rahul Kumar"), "email" := Str(email),
        "role" := Str("student"), "branch" := Str("Computer Science"), "year" := Str("3rd"),
        "rollNumber" := Str("CS2023-042")]
  }

  /** What a submit leads to: errors shown and no attempt made; `onLogin`
      called with a user and token; or the "invalid credentials" alert. */
  datatype LoginOutcome = Invalid(errors: ErrorMap<LoginField>) | LoggedIn(user: Record, token: string) | Refused

  /** `handleSubmit`, with the simulated network delay collapsed into one step. */
  function SubmitLogin(form: LoginForm): (r: LoginOutcome)
    ensures r.Invalid? <==> !NoErrors(ValidateLogin(form))
    ensures r.Invalid? ==> r.errors == ValidateLogin(form)
    ensures r.LoggedIn? ==> form.email == DemoEmail && form.password == DemoPassword
    ensures NoErrors(ValidateLogin(form)) ==>
      (r.LoggedIn? <==> form.email == DemoEmail && form.password == DemoPassword)
    ensures r.LoggedIn? ==>
      && r.token == DemoToken
      && "role" in r.user && r.user["role"] == Str("student")
      && "email" in r.user && r.user["email"] == Str(form.email)
  {
    var errors := ValidateLogin(form);
    if !NoErrors(errors) then Invalid(errors)
    else if form.email == DemoEmail && form.password == DemoPassword then LoggedIn(DemoUser(form.email), DemoToken)
    else Refused
  }

  /** The demonstration credentials pass validation, so they always log in,
      whatever the "remember me" box says. */
  lemma DemoCredentialsLogIn(rememberMe: bool)
    ensures SubmitLogin(LoginForm(DemoEmail, DemoPassword, rememberMe)).LoggedIn?
  {
    PlainAddressMatches("student", "svit", "edu.in");
    assert "student" + "@" + "svit" + "." + "edu.in" == DemoEmail;
  }
}

=== FILE: profile.dfy ===
/**
 * The profile page: the initial form built from the signed-in user, the
 * merge of the submitted form into the user record, and the password-change
 * checks.
 */
module Profile {
  import opened Wrappers
  import opened JsText
  import opened JsValues

  /** The inputs of the profile form, in the order they are initialised. */
  const ProfileKeys: seq<string> := ["name", "email", "phone", "branch", "year", "rollNumber", "bio"]

  /** The form shown on entry: each field is the user's value, or `''` when
      that value is missing or falsy (and every field is `''` without a user). */
  function InitialProfileForm(user: Option<Record>): (form: Record)
    ensures form.Keys == set k | k in ProfileKeys
    ensures forall k | k in ProfileKeys && user.Some? && k in user.value && Truthy(user.value[k]) ::
      form[k] == user.value[k]
    ensures forall k | k in ProfileKeys && !(user.Some? && k in user.value && Truthy(user.value[k])) ::
      form[k] == Str("")
  {
    map k | k in ProfileKeys :: FieldOr(user, k, Str(""))
  }

  /** `{...user, ...profileForm}`: the form's keys overwrite, everything else is kept. */
  function MergeProfile(user: Option<Record>, form: Record): (updated: Record)
    ensures updated.Keys == form.Keys + (if user.Some? then user.value.Keys else {})
    ensures forall k | k in form :: updated[k] == form[k]
    ensures forall k | user.Some? && k in user.value && k !in form :: updated[k] == user.value[k]
  {
    (if user.Some? then user.value else map[]) + form
  }

  /** Saving an untouched form keeps every truthy profile value and every
      non-profile field, and turns missing or falsy profile values into `''`. */
  lemma UntouchedSaveNormalises(user: Record)
    ensures var saved := MergeProfile(Some(user), InitialProfileForm(Some(user)));
      && saved.Keys == user.Keys + (set k | k in ProfileKeys)
      && (forall k | k in user && (k !in ProfileKeys || Truthy(user[k])) :: saved[k] == user[k])
      && (forall k | k in ProfileKeys && !(k in user && Truthy(user[k])) :: saved[k] == Str(""))
  {
  }

  // ---------------------------------------------------------------------------
  // Password change

  datatype PasswordForm = PasswordForm(currentPassword: string, newPassword: string, confirmPassword: string)

  const EmptyPasswordForm: PasswordForm := PasswordForm("", "", "")
  const MinPasswordLength: nat := 6
  const PasswordTooShort: string := "Password must be at least 6 characters"
  const PasswordsDiffer: string := "Passwords do not match"

  datatype PasswordOutcome = PasswordRejected(message: string) | PasswordChanged(form: PasswordForm)

  /** `handlePasswordSubmit`, with the simulated delay collapsed. The length
      check comes first; the current password is never compared to anything. */
  function SubmitPasswordChange(pf: PasswordForm): (r: PasswordOutcome)
    ensures r == PasswordRejected(PasswordTooShort) <==> JsLength(pf.newPassword) < MinPasswordLength
    ensures r == PasswordRejected(PasswordsDiffer) <==>
      JsLength(pf.newPassword) >= MinPasswordLength && pf.newPassword != pf.confirmPassword
    ensures r.PasswordChanged? <==>
      JsLength(pf.newPassword) >= MinPasswordLength && pf.newPassword == pf.confirmPassword
    ensures r.PasswordChanged? ==> r.form == EmptyPasswordForm
  {
    if JsLength(pf.newPassword) < MinPasswordLength then PasswordRejected(PasswordTooShort)
    else if pf.newPassword != pf.confirmPassword then PasswordRejected(PasswordsDiffer)
    else PasswordChanged(EmptyPasswordForm)
  }

  /** Any current password gives the same outcome. */
  lemma CurrentPasswordIgnored(pf: PasswordForm, other: string)
    ensures SubmitPasswordChange(pf.(currentPassword := other)) == SubmitPasswordChange(pf)
  {
  }
}

=== FILE: register.dfy ===
/**
 * Student registration: the validation of every field into an error map,
 * error clearing as the user edits, and the submit guard.
 */
module Register {
  import opened Wrappers
  import opened JsText
  import opened EmailPattern
  import opened Forms

  datatype RegisterForm = RegisterForm(
    firstName: string,
    lastName: string,
    email: string,
    password: string,
    confirmPassword: string,
    rollNumber: string,
    branch: string,
    year: string,
    termsAccepted: bool)

  const CollegeDomain: string := "svit.edu.in"
  const MinPasswordLength: nat := 6

  const FirstNameRequired: string := "First name is required"
  const LastNameRequired: string := "Last name is required"
  const EmailRequired: string := "Email is required"
  const EmailInvalid: string := "Please enter a valid email address"
  const EmailNotCollege: string := "Please use your SVIT college email"
  const PasswordRequired: string := "Password is required"
  const PasswordTooShort: string := "Password must be at least 6 characters"
  const PasswordsDiffer: string := "Passwords do not match"
  const RollNumberRequired: string := "Roll number is required"
  const BranchRequired: string := "Please select your branch"
  const YearRequired: string := "Please select your year"
  const TermsRequired: string := "You must accept the terms and conditions"

  /** The keys of the registration error map, one per input. */
  datatype Field =
    | FirstName | LastName | Email | Password | ConfirmPassword
    | RollNumber | Branch | Year | TermsAccepted

  /** Whether the check for `field` fails, each judged on its own. */
  predicate Fails(f: RegisterForm, field: Field) {
    match field
    case FirstName => Trim(f.firstName) == ""
    case LastName => Trim(f.lastName) == ""
    case Email => f.email == "" || !EmailLike(f.email) || !EndsWith(f.email, CollegeDomain)
    case Password => f.password == "" || JsLength(f.password) < MinPasswordLength
    case ConfirmPassword => f.password != f.confirmPassword
    case RollNumber => f.rollNumber == ""
    case Branch => f.branch == ""
    case Year => f.year == ""
    case TermsAccepted => !f.termsAccepted
  }

  /** The message for `field`; for the email and password the first failing level decides. */
  function Message(f: RegisterForm, field: Field): string {
    match field
    case FirstName => FirstNameRequired
    case LastName => LastNameRequired
    case Email =>
      if f.email == "" then EmailRequired
      else if !EmailLike(f.email) then EmailInvalid
      else EmailNotCollege
    case Password => if f.password == "" then PasswordRequired else PasswordTooShort
    case ConfirmPassword => PasswordsDiffer
    case RollNumber => RollNumberRequired
    case Branch => BranchRequired
    case Year => YearRequired
    case TermsAccepted => TermsRequired
  }

  const AllFields: set<Field> :=
    {FirstName, LastName, Email, Password, ConfirmPassword, RollNumber, Branch, Year, TermsAccepted}

  /** `validateForm`. */
  function ValidateRegistration(f: RegisterForm): (errors: ErrorMap<Field>)
    ensures forall k | k in errors :: HasError(errors, k)
    ensures FirstName in errors <==> Trim(f.firstName) == ""
    ensures LastName in errors <==> Trim(f.lastName) == ""
    ensures Email in errors <==> f.email == "" || !EmailLike(f.email) || !EndsWith(f.email, CollegeDomain)
    ensures Email in errors ==> errors[Email] == Some(
      if f.email == "" then EmailRequired
      else if !EmailLike(f.email) then EmailInvalid
      else EmailNotCollege)
    ensures Password in errors <==> f.password == "" || JsLength(f.password) < MinPasswordLength
    ensures Password in errors ==>
      errors[Password] == Some(if f.password == "" then PasswordRequired else PasswordTooShort)
    ensures ConfirmPassword in errors <==> f.password != f.confirmPassword
    ensures RollNumber in errors <==> f.rollNumber == ""
    ensures Branch in errors <==> f.branch == ""
    ensures Year in errors <==> f.year == ""
    ensures TermsAccepted in errors <==> !f.termsAccepted
    ensures FirstName in errors ==> errors[FirstName] == Some(FirstNameRequired)
    ensures LastName in errors ==> errors[LastName] == Some(LastNameRequired)
    ensures ConfirmPassword in errors ==> errors[ConfirmPassword] == Some(PasswordsDiffer)
    ensures RollNumber in errors ==> errors[RollNumber] == Some(RollNumberRequired)
    ensures Branch in errors ==> errors[Branch] == Some(BranchRequired)
    ensures Year in errors ==> errors[Year] == Some(YearRequired)
    ensures TermsAccepted in errors ==> errors[TermsAccepted] == Some(TermsRequired)
  {
    map field | field in AllFields && Fails(f, field) :: Some(Message(f, field))
  }

  /** The form a registration may be submitted with, stated field by field. */
  predicate Acceptable(f: RegisterForm) {
    && !Blank(f.firstName) && !Blank(f.lastName)
    && EmailLike(f.email) && EndsWith(f.email, CollegeDomain)
    && JsLength(f.password) >= MinPasswordLength
    && f.password == f.confirmPassword
    && f.rollNumber != "" && f.branch != "" && f.year != ""
    && f.termsAccepted
  }

  datatype Submission = Rejected(errors: ErrorMap<Field>) | Submitted

  /** `handleSubmit`: nothing is sent unless validation leaves no error. */
  function SubmitRegistration(f: RegisterForm): (r: Submission)
    ensures r.Rejected? ==> r.errors == ValidateRegistration(f) && !NoErrors(r.errors)
    ensures r.Submitted? ==> NoErrors(ValidateRegistration(f))
  {
    var errors := ValidateRegistration(f);
    if NoErrors(errors) then Submitted else Rejected(errors)
  }

  /** A registration is submitted exactly when every field is acceptable. */
  lemma SubmittedIffAcceptable(f: RegisterForm)
    ensures SubmitRegistration(f).Submitted? <==> Acceptable(f)
  {
    TrimEmptyIffBlank(f.firstName);
    TrimEmptyIffBlank(f.lastName);
    var errors := ValidateRegistration(f);
    if Acceptable(f) {
      assert errors.Keys == {};
    } else {
      assert errors.Keys != {};
    }
  }

  /** The domain check is a bare suffix test with no `@` before it, so an
      address at a different domain that merely ends in the college domain passes. */
  lemma SuffixCheckIsNotAnchored()
    ensures Email !in ValidateRegistration(
      RegisterForm("A", "B", "x@foosvit.edu.in", "secret1", "secret1", "R1", "CSE", "1st", true))
  {
    var email := "x@foosvit.edu.in";
    PlainAddressMatches("x", "foosvit", "edu.in");
    assert "x" + "@" + "foosvit" + "." + "edu.in" == email;
    assert email[|email| - |CollegeDomain|..] == CollegeDomain;
    var f := RegisterForm("A", "B", email, "secret1", "secret1", "R1", "CSE", "1st", true);
    assert !Fails(f, Email);
  }

  // ---------------------------------------------------------------------------
  // Editing

  datatype TextField = FirstNameInput | LastNameInput | EmailInput | PasswordInput
                     | ConfirmPasswordInput | RollNumberInput | BranchInput | YearInput

  /** One `onChange` event: a text input or the terms checkbox. */
  datatype Change = TextChange(input: TextField, value: string) | TermsChange(checked: bool)

  /** The error key of a text input (its `name` attribute). */
  function InputField(input: TextField): Field {
    match input
    case FirstNameInput => FirstName
    case LastNameInput => LastName
    case EmailInput => Email
    case PasswordInput => Password
    case ConfirmPasswordInput => ConfirmPassword
    case RollNumberInput => RollNumber
    case BranchInput => Branch
    case YearInput => Year
  }

  /** The error key named by the changed input. */
  function ChangedField(c: Change): Field {
    match c
    case TextChange(input, _) => InputField(input)
    case TermsChange(_) => TermsAccepted
  }

  function FieldText(f: RegisterForm, field: TextField): string {
    match field
    case FirstNameInput => f.firstName
    case LastNameInput => f.lastName
    case EmailInput => f.email
    case PasswordInput => f.password
    case ConfirmPasswordInput => f.confirmPassword
    case RollNumberInput => f.rollNumber
    case BranchInput => f.branch
    case YearInput => f.year
  }

  function SetField(f: RegisterForm, field: TextField, value: string): RegisterForm {
    match field
    case FirstNameInput => f.(firstName := value)
    case LastNameInput => f.(lastName := value)
    case EmailInput => f.(email := value)
    case PasswordInput => f.(password := value)
    case ConfirmPasswordInput => f.(confirmPassword := value)
    case RollNumberInput => f.(rollNumber := value)
    case BranchInput => f.(branch := value)
    case YearInput => f.(year := value)
  }

  datatype Editing = Editing(form: RegisterForm, errors: ErrorMap<Field>)

  /** `handleChange`: store the new value and clear that field's error only. */
  function HandleChange(s: Editing, c: Change): (r: Editing)
    ensures !HasError(r.errors, ChangedField(c))
    ensures r.errors.Keys == s.errors.Keys
    ensures forall k | k in s.errors && k != ChangedField(c) :: r.errors[k] == s.errors[k]
    ensures c.TextChange? ==>
      && FieldText(r.form, c.input) == c.value
      && r.form.termsAccepted == s.form.termsAccepted
      && forall g | g != c.input :: FieldText(r.form, g) == FieldText(s.form, g)
    ensures c.TermsChange? ==> r.form == s.form.(termsAccepted := c.checked)
  {
    var form := match c
      case TextChange(field, value) => SetField(s.form, field, value)
      case TermsChange(checked) => s.form.(termsAccepted := checked);
    Editing(form, ClearError(s.errors, ChangedField(c)))
  }

  // ---------------------------------------------------------------------------
  // The page as rendered

  /** The form `useState` starts with. */
  const InitialForm: RegisterForm := RegisterForm("", "", "", "", "", "", "", "", false)

  const InitialEditing: Editing := Editing(InitialForm, map[])

  /** The edits, applied in order. */
  function ApplyChanges(s: Editing, cs: seq<Change>): Editing
    decreases |cs|
  {
    if cs == [] then s else ApplyChanges(HandleChange(s, cs[0]), cs[1..])
  }

  /** The changes the page can produce: it renders only the first-name input
      and the terms checkbox. */
  predicate Rendered(c: Change) {
    c.TermsChange? || c.input == FirstNameInput
  }

  /** Edits through the rendered inputs never touch the last name. */
  lemma {:induction false} RenderedEditsKeepLastName(s: Editing, cs: seq<Change>)
    requires forall i | 0 <= i < |cs| :: Rendered(cs[i])
    ensures ApplyChanges(s, cs).form.lastName == s.form.lastName
    decreases |cs|
  {
    if cs != [] {
      var next := HandleChange(s, cs[0]);
      assert FieldText(next.form, LastNameInput) == FieldText(s.form, LastNameInput);
      RenderedEditsKeepLastName(next, cs[1..]);
    }
  }

  /** As the page is written, no sequence of edits makes a submission go
      through: the last name stays empty and always fails its check. */
  lemma RenderedPageNeverSubmits(cs: seq<Change>)
    requires forall i | 0 <= i < |cs| :: Rendered(cs[i])
    ensures var r := SubmitRegistration(ApplyChanges(InitialEditing, cs).form);
      r.Rejected? && LastName in r.errors && r.errors[LastName] == Some(LastNameRequired)
  {
    RenderedEditsKeepLastName(InitialEditing, cs);
    EmptyLastNameRejected(ApplyChanges(InitialEditing, cs).form);
  }

  /** A form with no last name is rejected with the last-name message. */
  lemma EmptyLastNameRejected(f: RegisterForm)
    requires f.lastName == ""
    ensures var r := SubmitRegistration(f);
      r.Rejected? && LastName in r.errors && r.errors[LastName] == Some(LastNameRequired)
  {
  }

  /** One edit per input, filling in `f`. */
  function EditsFor(f: RegisterForm): seq<Change> {
    [TextChange(FirstNameInput, f.firstName), TextChange(LastNameInput, f.lastName),
     TextChange(EmailInput, f.email), TextChange(PasswordInput, f.password),
     TextChange(ConfirmPasswordInput, f.confirmPassword), TextChange(RollNumberInput, f.rollNumber),
     TextChange(BranchInput, f.branch), TextChange(YearInput, f.year), TermsChange(f.termsAccepted)]
  }

  /** With every input rendered, a student can type any form, so a submission
      goes through exactly for the acceptable forms. */
  lemma FullFormSubmitsExactlyAcceptable(f: RegisterForm)
    ensures ApplyChanges(InitialEditing, EditsFor(f)).form == f
    ensures SubmitRegistration(ApplyChanges(InitialEditing, EditsFor(f)).form).Submitted? <==> Acceptable(f)
  {
    var e := EditsFor(f);
    var s0 := InitialEditing;
    var s1 := HandleChange(s0, e[0]);
    var s2 := HandleChange(s1, e[1]);
    var s3 := HandleChange(s2, e[2]);
    var s4 := HandleChange(s3, e[3]);
    var s5 := HandleChange(s4, e[4]);
    var s6 := HandleChange(s5, e[5]);
    var s7 := HandleChange(s6, e[6]);
    var s8 := HandleChange(s7, e[7]);
    var s9 := HandleChange(s8, e[8]);
    assert ApplyChanges(s0, e) == ApplyChanges(s1, e[1..]);
    assert ApplyChanges(s1, e[1..]) == ApplyChanges(s2, e[2..]);
    assert ApplyChanges(s2, e[2..]) == ApplyChanges(s3, e[3..]);
    assert ApplyChanges(s3, e[3..]) == ApplyChanges(s4, e[4..]);
    assert ApplyChanges(s4, e[4..]) == ApplyChanges(s5, e[5..]);
    assert ApplyChanges(s5, e[5..]) == ApplyChanges(s6, e[6..]);
    assert ApplyChanges(s6, e[6..]) == ApplyChanges(s7, e[7..]);
    assert ApplyChanges(s7, e[7..]) == ApplyChanges(s8, e[8..]);
    assert ApplyChanges(s8, e[8..]) == ApplyChanges(s9, e[9..]);
    assert e[9..] == [];
    assert s9.form == f;
    SubmittedIffAcceptable(f);
  }
}

=== FILE: seqs.dfy ===
/**
 * `Array.prototype.filter` and `Array.prototype.map` over immutable sequences,
 * with the facts the list handlers need: a filtered list is an
 * order-preserving sublist holding exactly the kept elements, and a map that
 * touches selected elements leaves the rest alone.
 */
module Seqs {

  /** `a` can be obtained from `b` by deleting elements, keeping the order of the rest. */
  predicate IsSubsequence<T(==)>(a: seq<T>, b: seq<T>)
    decreases |b|
  {
    if a == [] then true
    else if b == [] then false
    else if a[0] == b[0] then IsSubsequence(a[1..], b[1..])
    else IsSubsequence(a, b[1..])
  }

  /** `s.filter(keep)`. */
  function Filter<T(==,!new)>(s: seq<T>, keep: T -> bool): (r: seq<T>)
    ensures |r| <= |s|
    ensures forall x :: x in r <==> x in s && keep(x)
    ensures forall x :: multiset(r)[x] == if keep(x) then multiset(s)[x] else 0
    ensures IsSubsequence(r, s)
  {
    if s == [] then []
    else
      var rest := Filter(s[1..], keep);
      assert s == [s[0]] + s[1..];
      assert multiset(s) == multiset{s[0]} + multiset(s[1..]);
      if keep(s[0]) then
        assert multiset([s[0]] + rest) == multiset{s[0]} + multiset(rest);
        [s[0]] + rest
      else rest
  }

  /** A filter that keeps every element returns the list unchanged. */
  lemma {:induction false} FilterKeepingAll<T(!new)>(s: seq<T>, keep: T -> bool)
    requires forall x | x in s :: keep(x)
    ensures Filter(s, keep) == s
    decreases |s|
  {
    if s != [] {
      FilterKeepingAll(s[1..], keep);
    }
  }

  /** `s.map(x => matches(x) ? change(x) : x)`. */
  function UpdateWhere<T>(s: seq<T>, matches: T -> bool, change: T -> T): (r: seq<T>)
    ensures |r| == |s|
    ensures forall i | 0 <= i < |s| :: r[i] == if matches(s[i]) then change(s[i]) else s[i]
    ensures (forall i | 0 <= i < |s| :: !matches(s[i])) ==> r == s
  {
    seq(|s|, i requires 0 <= i < |s| => if matches(s[i]) then change(s[i]) else s[i])
  }

  /** No two positions of `s` share a `key`. */
  predicate DistinctBy<T, K(==)>(s: seq<T>, key: T -> K) {
    forall i, j | 0 <= i < j < |s| :: key(s[i]) != key(s[j])
  }

  /** Every element of a subsequence occurs in the longer sequence. */
  lemma {:induction false} SubsequenceMembers<T>(a: seq<T>, b: seq<T>, x: T)
    requires IsSubsequence(a, b) && x in a
    ensures x in b
    decreases |b|
  {
    if a[0] == b[0] {
      if x != a[0] {
        assert x in a[1..];
        SubsequenceMembers(a[1..], b[1..], x);
      }
    } else {
      SubsequenceMembers(a, b[1..], x);
    }
  }

  /** Deleting elements cannot make two keys collide. */
  lemma {:induction false} SubsequenceKeepsDistinct<T, K>(a: seq<T>, b: seq<T>, key: T -> K)
    requires IsSubsequence(a, b) && DistinctBy(b, key)
    ensures DistinctBy(a, key)
    decreases |b|
  {
    if a == [] {
    } else if a[0] == b[0] {
      assert DistinctBy(b[1..], key) by {
        forall i, j | 0 <= i < j < |b[1..]| ensures key(b[1..][i]) != key(b[1..][j]) {
          assert b[1..][i] == b[i + 1] && b[1..][j] == b[j + 1];
        }
      }
      SubsequenceKeepsDistinct(a[1..], b[1..], key);
      forall i, j | 0 <= i < j < |a| ensures key(a[i]) != key(a[j]) {
        if i == 0 {
          assert a[j] == a[1..][j - 1];
          SubsequenceMembers(a[1..], b[1..], a[j]);
          var k :| 0 <= k < |b[1..]| && b[1..][k] == a[j];
          assert key(b[0]) != key(b[k + 1]);
        } else {
          assert a[i] == a[1..][i - 1] && a[j] == a[1..][j - 1];
        }
      }
    } else {
      assert DistinctBy(b[1..], key) by {
        forall i, j | 0 <= i < j < |b[1..]| ensures key(b[1..][i]) != key(b[1..][j]) {
          assert b[1..][i] == b[i + 1] && b[1..][j] == b[j + 1];
        }
      }
      SubsequenceKeepsDistinct(a, b[1..], key);
    }
  }
}

=== FILE: session.dfy ===
/**
 * The application shell's session flags over browser storage: the startup
 * check that derives `isAuthenticated`, `loginUser`, `logoutUser`, and the
 * choice the root route and the protected routes make.
 */
module Session {
  import opened Wrappers
  import opened JsValues
  import Login
  import Profile

  /** `localStorage`: string keys to string values. */
  type Store = map<string, string>

  const TokenKey: string := "authToken"
  const UserKey: string := "userData"

  /** What `JSON.parse` of the stored user text comes to, as far as the
      startup check can tell: it throws, it yields a falsy value, or it
      yields a user object. */
  datatype Parsed = ParseThrows | ParsedFalsy | ParsedUser(user: Record)

  type Parser = string -> Parsed
  type Serializer = Record -> string

  datatype App = App(store: Store, user: Option<Record>, isAuthenticated: bool, loading: bool)

  /** The state on first render: signed out and still loading. */
  function Startup(store: Store): App {
    App(store, None, false, true)
  }

  /** `localStorage.getItem('authToken')` is truthy. */
  predicate HasToken(store: Store) {
    TokenKey in store && store[TokenKey] != ""
  }

  /** `JSON.parse(localStorage.getItem('userData'))`; a missing key reads as
      `null`, which parses to `null`. */
  function StoredUser(store: Store, parse: Parser): Parsed {
    if UserKey in store then parse(store[UserKey]) else ParsedFalsy
  }

  /** `checkAuthStatus`, run once after the first render. */
  function CheckAuthStatus(store: Store, parse: Parser): (app: App)
    ensures !app.loading
    ensures app.isAuthenticated <==> HasToken(store) && StoredUser(store, parse).ParsedUser?
    ensures app.isAuthenticated ==> app.user == Some(StoredUser(store, parse).user)
    ensures !app.isAuthenticated ==> app.user == None
    ensures HasToken(store) && StoredUser(store, parse).ParseThrows? ==>
      app.store == store - {TokenKey, UserKey}
    ensures !(HasToken(store) && StoredUser(store, parse).ParseThrows?) ==> app.store == store
  {
    var start := Startup(store);
    var checked :=
      if !HasToken(store) then start
      else match StoredUser(store, parse)
        case ParsedUser(u) => start.(user := Some(u), isAuthenticated := true)
        case ParsedFalsy => start
        case ParseThrows => start.(store := store - {TokenKey, UserKey});
    checked.(loading := false)
  }

  /** `loginUser`. */
  function LoginUser(app: App, user: Record, token: string, stringify: Serializer): (r: App)
    ensures r.isAuthenticated && r.user == Some(user) && r.loading == app.loading
    ensures TokenKey in r.store && r.store[TokenKey] == token
    ensures UserKey in r.store && r.store[UserKey] == stringify(user)
    ensures forall k | k in app.store && k != TokenKey && k != UserKey :: k in r.store && r.store[k] == app.store[k]
    ensures r.store.Keys == app.store.Keys + {TokenKey, UserKey}
  {
    App(app.store[TokenKey := token][UserKey := stringify(user)], Some(user), true, app.loading)
  }

  /** `logoutUser`. */
  function LogoutUser(app: App): (r: App)
    ensures !r.isAuthenticated && r.user == None && r.loading == app.loading
    ensures TokenKey !in r.store && UserKey !in r.store
    ensures forall k | k in app.store && k != TokenKey && k != UserKey :: k in r.store && r.store[k] == app.store[k]
    ensures r.store.Keys == app.store.Keys - {TokenKey, UserKey}
  {
    App(app.store - {TokenKey, UserKey}, None, false, app.loading)
  }

  lemma LogoutIdempotent(app: App)
    ensures LogoutUser(LogoutUser(app)) == LogoutUser(app)
  {
  }

  /** A reload after `loginUser` signs the same user back in, provided the
      token is non-empty and the stored text parses back to the user. */
  lemma LoginSurvivesReload(app: App, user: Record, token: string, stringify: Serializer, parse: Parser)
    requires token != "" && parse(stringify(user)) == ParsedUser(user)
    ensures var reloaded := CheckAuthStatus(LoginUser(app, user, token, stringify).store, parse);
      reloaded.isAuthenticated && reloaded.user == Some(user)
  {
  }

  /** A reload after `logoutUser` starts signed out. */
  lemma LogoutSurvivesReload(app: App, parse: Parser)
    ensures !CheckAuthStatus(LogoutUser(app).store, parse).isAuthenticated
  {
  }

  /** `handleProfileSubmit` as it reaches the shell: `setUser` with the merged
      record, and the `userData` key rewritten with its serialisation. */
  function SaveProfile(app: App, form: Record, stringify: Serializer): (r: App)
    ensures r.user == Some(Profile.MergeProfile(app.user, form))
    ensures r.isAuthenticated == app.isAuthenticated && r.loading == app.loading
    ensures UserKey in r.store && r.store[UserKey] == stringify(Profile.MergeProfile(app.user, form))
    ensures forall k | k in app.store && k != UserKey :: k in r.store && r.store[k] == app.store[k]
    ensures r.store.Keys == app.store.Keys + {UserKey}
  {
    var updated := Profile.MergeProfile(app.user, form);
    app.(user := Some(updated), store := app.store[UserKey := stringify(updated)])
  }

  /** A profile save keeps the session token, so a reload signs the merged
      user back in when its stored text parses back to it. */
  lemma SaveProfileSurvivesReload(app: App, form: Record, stringify: Serializer, parse: Parser)
    requires HasToken(app.store)
    requires var updated := Profile.MergeProfile(app.user, form);
      parse(stringify(updated)) == ParsedUser(updated)
    ensures var saved := SaveProfile(app, form, stringify);
      && HasToken(saved.store) && saved.store[TokenKey] == app.store[TokenKey]
      && CheckAuthStatus(saved.store, parse).isAuthenticated
      && CheckAuthStatus(saved.store, parse).user == saved.user
  {
  }

  // ---------------------------------------------------------------------------
  // Routing

  datatype RootView = Spinner | LoginPage | RedirectToDashboard

  /** What `/` renders: the spinner while loading, then the login page when
      signed out and a redirect to the dashboard when signed in. */
  function RootRoute(app: App): (v: RootView)
    ensures v == Spinner <==> app.loading
    ensures !app.loading ==> (v == LoginPage <==> !app.isAuthenticated)
  {
    if app.loading then Spinner
    else if app.isAuthenticated then RedirectToDashboard
    else LoginPage
  }

  datatype GuardView = ShowPage | RedirectToRoot

  /** `ProtectedRoute`: the page itself when signed in, a redirect to `/` otherwise. */
  function ProtectedRoute(app: App): (v: GuardView)
    ensures v == ShowPage <==> app.isAuthenticated
  {
    if app.isAuthenticated then ShowPage else RedirectToRoot
  }

  /** A protected page shows only in a session that was signed in: never
      after a logout, and after a reload only when a token is stored and the
      stored user parses to an object. */
  lemma SignedOutSeesNoProtectedPage(app: App, store: Store, parse: Parser)
    ensures ProtectedRoute(LogoutUser(app)) == RedirectToRoot
    ensures ProtectedRoute(CheckAuthStatus(store, parse)) == ShowPage
      <==> HasToken(store) && StoredUser(store, parse).ParsedUser?
  {
  }

  /** `onLogin` as the root route wires it: the login form's result feeds `loginUser`. */
  function SubmitLoginForm(app: App, form: Login.LoginForm, stringify: Serializer): (r: App)
    ensures Login.SubmitLogin(form).LoggedIn? ==> r.isAuthenticated
    ensures !Login.SubmitLogin(form).LoggedIn? ==> r == app
  {
    match Login.SubmitLogin(form)
    case LoggedIn(user, token) => LoginUser(app, user, token, stringify)
    case _ => app
  }

  /** Signing in with the demonstration credentials on the loaded root page
      leads to the dashboard, and a reload keeps the session when the stored
      user text parses back. */
  lemma DemoLoginReachesDashboard(app: App, rememberMe: bool, stringify: Serializer, parse: Parser)
    requires !app.loading
    ensures var r := SubmitLoginForm(app, Login.LoginForm(Login.DemoEmail, Login.DemoPassword, rememberMe), stringify);
      && RootRoute(r) == RedirectToDashboard
      && ProtectedRoute(r) == ShowPage
      && r.user == Some(Login.DemoUser(Login.DemoEmail))
      && (parse(stringify(Login.DemoUser(Login.DemoEmail))) == ParsedUser(Login.DemoUser(Login.DemoEmail)) ==>
            CheckAuthStatus(r.store, parse).isAuthenticated)
  {
    Login.DemoCredentialsLogIn(rememberMe);
  }
}

=== FILE: uploads.dfy ===
/**
 * The upload manager's list of files: the status filter, prepending a new
 * upload, deleting by id, and the status badge. The list may hold `null`
 * (the form's Cancel button reports `null` as its result), and the filter and
 * delete callbacks read a field of every entry, which throws on `null`; the
 * model returns `None` for that TypeError.
 */
module Uploads {
  import opened Wrappers
  import opened JsValues
  import opened Seqs

  datatype Upload = Upload(
    id: string,
    name: string,
    uploadDate: string,
    size: string,
    description: string,
    status: Option<string>,
    category: Option<string>,
    uploadedBy: Option<Value>,
    uploadedById: Option<Value>)

  /** One list entry; `None` is a `null` placed in the list. */
  type Entry = Option<Upload>

  const AllStatuses: string := "all"

  predicate HasStatus(e: Entry, status: string) {
    e.Some? && e.value.status == Some(status)
  }

  /** `filteredFiles`. */
  function FilterByStatus(files: seq<Entry>, filter: string): (r: Option<seq<Entry>>)
    ensures filter == AllStatuses ==> r == Some(files)
    ensures filter != AllStatuses ==> (r.None? <==> None in files)
    ensures filter != AllStatuses && r.Some? ==>
      && IsSubsequence(r.value, files)
      && (forall e :: e in r.value <==> e in files && HasStatus(e, filter))
      && (forall e | HasStatus(e, filter) :: multiset(r.value)[e] == multiset(files)[e])
  {
    if filter == AllStatuses then Some(files)
    else if None in files then None
    else Some(Filter(files, (e: Entry) => HasStatus(e, filter)))
  }

  /** `handleUploadSuccess`: the reported entry goes first, the old list follows unchanged. */
  function HandleUploadSuccess(files: seq<Entry>, reported: Entry): (r: seq<Entry>)
    ensures |r| == |files| + 1 && r[0] == reported && r[1..] == files
  {
    [reported] + files
  }

  /** `confirmDeleteFile` for the entry the confirmation modal was opened on. */
  function DeleteFile(files: seq<Entry>, target: Upload): (r: Option<seq<Entry>>)
    ensures r.None? <==> None in files
    ensures r.Some? ==>
      && IsSubsequence(r.value, files)
      && (forall e :: e in r.value <==> e in files && e.Some? && e.value.id != target.id)
      && (forall e: Entry | e.Some? && e.value.id != target.id :: multiset(r.value)[e] == multiset(files)[e])
  {
    if None in files then None
    else Some(Filter(files, (e: Entry) => e.Some? && e.value.id != target.id))
  }

  datatype Badge = Success | Warning | Danger | Secondary

  /** `getStatusBadgeVariant`. */
  function BadgeVariant(status: Option<string>): (b: Badge)
    ensures b == Success <==> status == Some("approved")
    ensures b == Warning <==> status == Some("pending")
    ensures b == Danger <==> status == Some("rejected")
  {
    match status
    case Some("approved") => Success
    case Some("pending") => Warning
    case Some("rejected") => Danger
    case _ => Secondary
  }

  /** Every entry a status filter shows wears that status's badge. */
  lemma FilteredEntriesShareBadge(files: seq<Entry>, filter: string)
    requires filter != AllStatuses
    requires FilterByStatus(files, filter).Some?
    ensures forall e | e in FilterByStatus(files, filter).value :: BadgeVariant(e.value.status) == BadgeVariant(Some(filter))
  {
  }

  // ---------------------------------------------------------------------------
  // The Cancel result

  /** The table body (UploadManager.jsx:213-215): each shown row reads
      `file.id`, which throws on a `null` row; the keys come out in order. */
  function RowKeys(shown: seq<Entry>): (r: Option<seq<string>>)
    ensures r.None? <==> None in shown
    ensures r.Some? ==>
      && |r.value| == |shown|
      && forall i | 0 <= i < |shown| :: shown[i].Some? && r.value[i] == shown[i].value.id
  {
    if shown == [] then Some([])
    else match shown[0]
      case None => None
      case Some(u) =>
        match RowKeys(shown[1..])
        case None => None
        case Some(keys) => Some([u.id] + keys)
  }

  /** One render of the list under a filter: the filter, then the rows. */
  function RenderListing(files: seq<Entry>, filter: string): Option<seq<string>> {
    match FilterByStatus(files, filter)
    case None => None
    case Some(shown) => RowKeys(shown)
  }

  predicate NullFree(files: seq<Entry>) {
    None !in files
  }

  /** The evidently intended handler: a `null` result only closes the modal. */
  function HandleUploadResult(files: seq<Entry>, reported: Entry): (r: seq<Entry>)
    ensures reported.None? ==> r == files
    ensures reported.Some? ==> r == HandleUploadSuccess(files, reported)
    ensures NullFree(files) ==> NullFree(r)
  {
    if reported.None? then files else [reported] + files
  }

  /** On a list that never holds `null`, rendering, filtering and deleting always succeed. */
  lemma NullFreeListingTotal(files: seq<Entry>, reported: Entry, filter: string, target: Upload)
    requires NullFree(files)
    ensures var after := HandleUploadResult(files, reported);
      && FilterByStatus(after, filter).Some?
      && RenderListing(after, filter).Some?
      && DeleteFile(after, target).Some?
  {
  }
}

=== FILE: wrappers.dfy ===
/** Option, the model's stand-in for a JavaScript value that may be `null`. */
module Wrappers {

  datatype Option<+T> = None | Some(value: T)
}
